=== FILE: README.md ===
# Levee stability scripts — a Dafny model of the driver logic

The repository holds the scripts a levee authority runs around an external
slope-stability engine. They search for the smallest stabilising berm
(`berm.py`). They build fragility curves of safety factor against river level
(`fc_plline.py`). They decode the names of calculation files (`get_stixes.py`).
They compute chainages along reference lines (`get_reflines.py`). They remove
repeated lines from a results table (`clear_results.py`).

This project models the logic of those scripts. The stability engine itself is not modelled:

- the berm builder becomes the oracle `canBuild`;
- the safety-factor computation becomes the oracle `sf`;
- the preparation of one river-level model becomes the oracle `prepare`;
- the engine's returned models become a list of `EngineResult`s.

Python's `float()`, `round(v, 2)`, `str()` of a float and `math.hypot` are
abstract function parameters. The remaining string and number conventions the
scripts rely on are defined exactly:

- `str.strip` with Python's whitespace set;
- `str.split` on one character;
- `str.replace(".stix", "")`;
- `str.upper` (ASCII letters only);
- ordering of strings with `<`;
- `round()` to a whole number (round half to even);
- `str()` of an integer;
- the length of `numpy.arange`.

Modules:

- `Options`, `Text`, `Numerals`: the Python conventions above.
- `Seqs`: a list filtered and mapped in one pass, as the list-building loops of `get_stixes.py` and `get_reflines.py` do, and a loop body run row by row until it yields the action that ends the script, as the row loops of `berm.py` and `fc_plline.py` do.
- `ParamFile`: the parameter table. It keeps the stripped non-blank lines and drops the header. A row is split into stripped comma-separated fields.
- `BermParams`: the row loop of `berm.py`. The names a row binds are modelled as a binding environment, so a row that fails to convert falls through with the previous row's values, or with unbound names, as the script does.
- `BermSearch`: the search for one row:
  - build the minimal berm, the maximal berm and the filled ditch;
  - apply the fixed cascade of tests;
  - sweep ten intermediate berms;
  - select the passing berm with the least label.
- `FcLevels`: the river-level grid and the output file names levels are read back from. It also covers reading the results back and the six risk bands of the failure-probability chart.
- `FcParams`: the row loop of `fc_plline.py`, including the decoding of `<dtcode>_<start>-<end>.stix`. The levee codes the settings tables hold are a parameter `settings`; the chart step ends the script for a code they lack.
- `Stixes`: decoding file stems into levee code and chainage range, and the display name.
- `RefLines`:
  - integer chainages along a polyline;
  - the point at a chainage;
  - the sub-polyline between two chainages.
- `ClearResults`: keeping the first occurrence of every line.

Where the code and its written description differ, the model follows the code:

- **Failed rows are not skipped.** A row that fails to convert is logged but not skipped. What happens next depends on how far its try block got.
  - A `berm.py` row that does not split into five fields binds nothing. As the first row it ends the script, because the error message names the unbound `filename` (`berm.py:66-69`). As a later row it repeats the previous row's search.
  - A `berm.py` row with five fields whose coordinates do not all convert binds its own `filename`, and at least one coordinate stays text. As the first row it ends the script at `berm.py:75`, because `dtcode` is still unbound. As a later row it never searches. Instead, the berm builder gets the new file name with a coordinate still text, under the previous row's levee code.
  - In `fc_plline.py` a failed first row never charts a curve. It ends the script at the step-size test, or it is skipped, or it ends the script in the chart step, where its levee code or its chainages are still unbound.
  - A later `fc_plline.py` row whose file name does not split in two runs under the previous row's levee code and chainages.
  - A later `fc_plline.py` row whose name splits in two gets the new levee code. Its two chainages go stale independently. A start that does not convert leaves both chainages from the previous row. A start that converts is rebound even when the end then fails (`A_5`, `fc_plline.py:59-60`), so only the end chainage is stale.
- **Only intermediate berms are skipped.** A failure to build the minimal berm, the maximal berm or the filled ditch abandons the whole row. Only an intermediate berm that fails is skipped.
- **Candidates are sorted by label.** The labels are strings, not indices. The two orders agree for the ten sections the script uses, and part at index 10.
- **The two tests differ at equality.** The cascade accepts a factor equal to the requirement (`>=`). The final selection demands strictly more (`>`).

## Model

| member | source | states |
|---|---|---|
| Text.Strip | berm.py:27-29 | the result has no leading or trailing whitespace, is no longer than the input, and is empty exactly when the input is all whitespace |
| Text.StripSlice | berm.py:27-29 | stripping cuts exactly the leading and the trailing whitespace out of the line |
| Text.StripIdempotent | berm.py:60 | stripping a field that was already stripped changes nothing |
| Text.Split | berm.py:60 | `split` on one character gives one more piece than there are separators, no piece holds the separator, and joining the pieces gives the text back |
| Text.SplitJoin | fc_plline.py:52 | splitting a join of separator-free pieces gives those pieces back |
| Text.SplitAppend | fc_plline.py:58 | splitting `a + sep + b` is splitting `a` and then `b` |
| Text.LastPiece | fc_plline.py:160 | the last `_` piece of `a + "_" + b` is `b` when `b` holds no `_` |
| Text.FirstPiece | berm.py:65 | `split("_")[0]` is the longest prefix without `_`: it ends at the first `_` or at the end of the name |
| Text.RemoveAll | fc_plline.py:60 | removing every `.stix` never lengthens the text and leaves a text without `.stix` unchanged |
| Text.RemoveStixSuffix | fc_plline.py:160 | removing `.stix` from a text that ends in one and holds no other gives the text before it |
| Text.Upper | get_stixes.py:27 | upper-casing keeps the length, turns every lower-case ASCII letter into its capital 32 code points below, leaves every other character alone, and leaves no lower-case letter |
| Text.SplitUpper | get_stixes.py:27 | splitting the upper-cased stem on `_` gives the upper-cased pieces of the stem |
| Text.RemoveAllKeepsOut | fc_plline.py:160 | removing every `.stix` never introduces a character, so the level text never holds a `_` |
| Text.UpperIdempotent | get_stixes.py:55 | upper-casing an upper-cased code changes nothing |
| Text.LexLessTransitive | berm.py:202 | Python's string order is transitive |
| Text.LexLessTotal | berm.py:202 | of two different strings one sorts before the other |
| Text.LexLessEqTransitive | berm.py:202 | Python's `<=` on strings is transitive |
| Text.LexLessEqTotal | berm.py:202 | any two strings compare under Python's `<=` |
| Text.LexLessCommonPrefix | berm.py:202 | labels with a common prefix sort as their tails do |
| Numerals.NatToString | berm.py:193 | the decimal text of `i` is all digits, has one digit exactly when `i < 10`, and has no leading zero |
| Numerals.NatToStringRoundTrip | berm.py:193 | reading the decimal text back gives the number |
| Numerals.IntToString | get_stixes.py:17 | the text of a whole number starts with `-` exactly when it is negative; the rest is the decimal digits of its magnitude, without a leading zero |
| Numerals.IntToStringRoundTrip | get_stixes.py:17 | the text of a whole number, sign included, reads back as that number |
| Numerals.RoundHalfEven | get_reflines.py:27-33 | `round()` lands within one half of its argument and, on a tie, on the even neighbour |
| Numerals.RoundMonotone | get_reflines.py:27-33 | rounding never reverses the order of two values |
| Numerals.Ceil | fc_plline.py:115 | the ceiling is the least whole number not below its argument |
| ParamFile.Fields | berm.py:60 | a row unpacks into `n` names exactly when it holds `n - 1` commas; each field is stripped and holds no comma |
| ParamFile.FieldsOfJoin | berm.py:60 | a row written from stripped comma-free fields unpacks into those fields |
| ParamFile.KeptLinesStripped | berm.py:27-29 | the kept lines are stripped and non-empty, and the strip of every non-blank line is kept |
| ParamFile.KeptLinesFromLines | berm.py:27-29 | every kept line is the stripped text of a non-blank line of the file |
| ParamFile.DataLines | fc_plline.py:43-45 | the data rows are fewer than the lines, and each is the non-empty stripped text of a non-blank line |
| ParamFile.KeptLinesAppend | fc_plline.py:43-45 | filtering two stretches of the file is filtering them one after the other |
| ParamFile.HeaderDropped | fc_plline.py:43-45 | leading blank lines and the header do not reach the data rows |
| BermParams.AssignRow | berm.py:59-65 | a row without exactly four commas leaves every binding as it was and does not complete; one with four binds the file name and all four coordinates |
| BermParams.AssignFields | berm.py:59-65 | each conversion rebinds one name and the first failure stops the block; the block completes exactly when all four coordinates convert, and then binds exactly the row's values |
| BermParams.ParseBermRow | berm.py:59-65 | a row without exactly four commas does not read; the file name is stripped and comma-free and the levee code is its part before the first `_` |
| BermParams.CompleteIsFresh | berm.py:59-65 | whatever the previous bindings, the block completes exactly when the row reads on its own, and then leaves only the row's values |
| BermParams.ParseFormattedRow | berm.py:60-65 | a row written from a stripped name and four converting fields reads back as those values |
| BermParams.RowStep | berm.py:58-77 | after a row that reads only its values are bound, whatever came before; a row without four commas leaves the bindings as they were |
| BermParams.ActionOf | berm.py:66-77 | a search starts exactly when all names are bound to numbers and the levee code has a required factor, and then with those bindings and that factor; the builder receives text only while a coordinate is still text |
| BermParams.Run | berm.py:58-77 | one action per row, the first being the first row's; no action before the last is a crash, and the loop ends early only at a crash |
| BermParams.GoodRowSearchesItself | berm.py:58-77 | a row that reads searches with its own values and required factor, whatever came before |
| BermParams.MalformedFirstRowCrashes | berm.py:66-69 | a malformed first row ends the script in its own error handler |
| BermParams.MalformedRowRepeatsPrevious | berm.py:58-77 | a malformed later row repeats the previous row's search |
| BermParams.BadNumberNeverSearches | berm.py:71-77 | a row with five fields whose numbers do not all convert never starts a search of its own |
| BermParams.FirstRowBadNumberCrashes | berm.py:59-75 | a first row with five fields whose coordinates do not all convert binds `filename` but not `dtcode`, and ends the script at the factor lookup |
| BermParams.LaterBadNumberBuildsText | berm.py:59-77 | a later such row hands its own file name, with a coordinate still text, to the builder under the previous row's levee code |
| BermSearch.Cascade | berm.py:145-164 | each verdict of the cascade holds exactly under its conditions on the four factors, with `>=` and a strict "no solution" test |
| BermSearch.DitchNeverAfterFailingMax | berm.py:155-164 | a passing filled ditch is never reported when the maximal berm fails |
| BermSearch.InterpolateEvenlySpaced | berm.py:170-178 | consecutive intermediate points are one step `(max - min) / 11` apart |
| BermSearch.Interpolate | berm.py:170-178 | every intermediate point lies strictly between the minimal and the maximal berm |
| BermSearch.InterpolateIncreasing | berm.py:170-178 | the intermediate points increase with their index |
| BermSearch.SweepPoints | berm.py:170-180 | the accumulating loop yields exactly ten points, the `i`-th at `min + (i + 1) * (max - min) / 11` |
| BermSearch.Label | berm.py:193 | the label is the levee code, then `_berm_`, then the decimal digits of the index |
| BermSearch.LabelsDistinct | berm.py:193 | different indices give different labels |
| BermSearch.LabelOrderIsIndexOrder | berm.py:202 | below ten, sorting by label is sorting by index |
| BermSearch.LabelOrderPartsAtTen | berm.py:24 | from ten sections on, label `..._berm_10` would sort before `..._berm_2` |
| BermSearch.SweepFrom | berm.py:176-196 | every candidate is a built intermediate berm with its own label and factor, and every built berm is a candidate |
| BermSearch.SelectByLabel | berm.py:202-209 | the selection is a candidate with a factor strictly above the requirement whose label is least among those that pass; there is none exactly when all fail |
| BermSearch.SweepOutcome | berm.py:166-209 | the selected berm is built and passes, every built berm before it fails, and no berm is selected exactly when every built berm fails |
| BermSearch.Search | berm.py:77-209 | the row is abandoned exactly when one of the three fixed modifications cannot be built, naming one that cannot; otherwise each outcome holds exactly when the cascade's conditions on the four factors lead to it, "none suffices" exactly when the sweep is reached and every built intermediate berm fails, and a selected berm is built and passes |
| BermSearch.NoIntermediatePasses | berm.py:203-205 | when the cascade falls through and no intermediate berm passes, no berm suffices |
| BermSearch.EqualityAcceptedOnlyByCascade | berm.py:150-203 | a minimal berm exactly at the requirement is accepted, a selected intermediate berm never sits exactly at it |
| BermSearch.AbandonedBeforeInitialCheck | berm.py:91-97 | a row whose minimal berm cannot be built is abandoned even when the unchanged section would suffice |
| FcLevels.Arange | fc_plline.py:115 | the grid starts at the start, steps by the step, stays below the stop, and is long enough to reach the stop |
| FcLevels.LevelGrid | fc_plline.py:115 | every level lies below the maximum plus half a step |
| FcLevels.GridIncludesMax | fc_plline.py:115 | when the span is `k` whole steps the grid has `k + 1` levels and ends exactly at the maximum |
| FcLevels.GridLevels | fc_plline.py:115 | the `i`-th level is the minimum plus `i` steps |
| FcLevels.PreparedPrefix | fc_plline.py:113-136 | the models kept are the levels up to the first one that cannot be prepared |
| FcLevels.OutputName | fc_plline.py:120 | the output name is the file name, `_`, the level text and `.stix`, and reading the level text back gives the level text it was written with |
| FcLevels.LevelText | fc_plline.py:160 | the level text holds no `_`, and a name without `_` is read whole with every `.stix` removed |
| FcLevels.LevelRoundTrip | fc_plline.py:120 | with a float formatter that `float()` inverts, every level comes back from its output name |
| FcLevels.ReadBack | fc_plline.py:156-175 | the curve has no more factors than levels and no more levels than models; the lists align exactly when every model with a readable level has a factor |
| FcLevels.ReadBackAligned | fc_plline.py:156-175 | models whose names give a list of levels and which carry a factor each read back as exactly those levels and factors |
| FcLevels.ReadBackRoundTrip | fc_plline.py:156-175 | models returned in order under their own names, each with a factor, give back the levels paired with their factors |
| FcLevels.RiskBands | fc_plline.py:196-231 | six bands, the first starting at 0 and the last stopping at 1, each starting where the previous one stops |
| FcLevels.BandsNonEmptyIff | fc_plline.py:196-231 | every band is non-empty exactly when `0 < sig_dsn < ond_dsn < ond` and `30 * ond < 1` |
| FcLevels.BandsPartition | fc_plline.py:196-231 | with ordered thresholds every probability in `[0, 1)` lies in exactly one band |
| FcParams.DecodeName | fc_plline.py:58-60 | a name that decodes splits on `_` into exactly the levee code and one more part |
| FcParams.NameRoundTrip | fc_plline.py:58-60 | `<dtcode>_<start>-<end>.stix` decodes to the code and the two chainages |
| FcParams.AssignChainages | fc_plline.py:58-60 | only the code and the chainages are rebound; a name that does not split in two binds nothing; the block completes exactly when the name decodes |
| FcParams.AssignFcFields | fc_plline.py:51-60 | the step size is a number exactly when all three numbers convert; a name that does not split in two keeps the old levee code; completion binds exactly the row's values |
| FcParams.AssignFcRow | fc_plline.py:50-64 | a row without exactly three commas changes no binding and does not complete; one with three binds the file name and all three levels; an incomplete block keeps the previous end chainage |
| FcParams.ParseFcRow | fc_plline.py:50-64 | a row without exactly three commas does not read; the name is stripped, comma-free and decodes to the row's code and chainages |
| FcParams.FcCompleteIsFresh | fc_plline.py:50-64 | whatever the previous bindings, the block completes exactly when the row reads on its own, and then leaves only the row's values |
| FcParams.FcActionOf | fc_plline.py:70-254 | a curve is calculated and charted only for a non-empty list of prepared levels of the bound file, under a bound levee code the settings tables know and both bound chainages |
| FcParams.UnboundNameNeverCalculates | fc_plline.py:177-256 | with the levee code or a chainage unbound no curve is charted |
| FcParams.LevelsBeforeStepKept | fc_plline.py:50-57 | the levels convert before the step size, in the empty bindings and after every row, so a converted step size never meets a text level |
| FcParams.FcRowStep | fc_plline.py:49-74 | after a row that reads only its values are bound, whatever came before; a row without three commas leaves the bindings as they were |
| FcParams.FcRun | fc_plline.py:49-256 | one action per row, the first being the first row's; no action before the last is a crash, and the loop ends early only at a crash |
| FcParams.GoodRowCalculatesItsGrid | fc_plline.py:70-256 | a row that reads, with a positive step, calculates its own grid cut at the first unprepared level, under its own code and chainages; it is skipped when no level is prepared and ends the script when the settings tables lack its code |
| FcParams.NonPositiveStepSkipped | fc_plline.py:70-72 | a step size of zero or less skips the row |
| FcParams.FcMalformedFirstRowCrashes | fc_plline.py:65-70 | a malformed first row ends the script at the step-size test |
| FcParams.FailedFirstRowNeverCalculates | fc_plline.py:50-256 | a first row that does not read completely never charts a curve |
| FcParams.TextStepCrashes | fc_plline.py:56-70 | a step size that does not convert ends the script |
| FcParams.StaleLeveeCode | fc_plline.py:58-74 | a later row whose name does not split in two is calculated under the previous row's code and chainages |
| FcParams.NewStartStaleEnd | fc_plline.py:58-60 | a name that splits in two and whose start converts but whose end does not rebinds the code and the start, and keeps the previous end chainage |
| Stixes.TrajectenPlain | get_stixes.py:5 | the known codes are upper case and hold no `_` |
| Stixes.Tokens | get_stixes.py:27 | the tokens are the `_` pieces of the upper-cased stem and join back into it |
| Stixes.FirstCode | get_stixes.py:28-35 | there is no code exactly when no token is a known code; the code found is a known code among the tokens |
| Stixes.FirstCodeSkips | get_stixes.py:35 | the code is the first token that is a known code |
| Stixes.Chainage | get_stixes.py:40-47 | a token yields a range exactly when it splits on `-` in two, is not itself a code and both parts convert; kilometres become metres |
| Stixes.FirstChainage | get_stixes.py:38-49 | no range exactly when no token yields one |
| Stixes.FirstChainageFrom | get_stixes.py:38-49 | tokens that yield no range do not affect the first range found |
| Stixes.ScanChainage | get_stixes.py:38-49 | the loop with its `has_km` flag finds a range exactly when some token yields one, and then binds the first one |
| Stixes.TryToken | get_stixes.py:40-49 | one pass of the try block reports a range exactly when the token yields one, binds both of its values then, and otherwise leaves `end` alone |
| Stixes.ScanStem | get_stixes.py:25-55 | a stem is skipped exactly when no token is a known code or none yields a range; otherwise it gives the first code and the first range |
| Stixes.ConventionalStem | get_stixes.py:25-55 | `<code>_<start>-<end>` decodes to the code and the two values in metres, unless the range reads as a code itself |
| Stixes.DecodeFile | get_stixes.py:31-55 | a file is kept exactly when its stem decodes, under a known code, with the decoded values |
| Stixes.GetStixes | get_stixes.py:20-57 | at most one entry per file found |
| Stixes.GetStixesSound | get_stixes.py:20-57 | every entry is a file that was found, under a known code, with the values its stem decodes to |
| Stixes.GetStixesComplete | get_stixes.py:20-57 | every found file whose stem decodes has its entry |
| Stixes.GetStixesAppend | get_stixes.py:25-55 | files are decoded independently and in order |
| Stixes.StixName | get_stixes.py:15-17 | for a code without `_`, the name splits back into the code and the texts of the two rounded chainages |
| Stixes.StixNameIdentifies | get_stixes.py:15-17 | two files share a name exactly when they share the code and both rounded chainages |
| RefLines.FromShape | get_reflines.py:24-33 | one vertex per coordinate, at that coordinate; the first chainage is 0 |
| RefLines.ChainageStep | get_reflines.py:26-33 | each chainage is the previous one plus the segment length, rounded half to even |
| RefLines.ChainagesNonDecreasing | get_reflines.py:26-33 | with a non-negative distance the chainages never decrease |
| RefLines.ChainageDrift | get_reflines.py:26-33 | the chainage of vertex `n` is within `n / 2` of the exact path length |
| RefLines.ShapeLength | get_reflines.py:24-39 | the length of a line read from a non-empty shape is its greatest chainage, within half a metre per segment of the exact path length |
| RefLines.SegmentFor | get_reflines.py:42-46 | the segment found spans the chainage and no earlier one does; none is found exactly when no segment spans it |
| RefLines.ChainagesMonotone | get_reflines.py:26-33 | with a non-negative distance a later vertex never has a smaller chainage |
| RefLines.Interpolate | get_reflines.py:47-48 | the interpolated point lies on the line through the segment's end points, displaced in proportion to the chainage |
| RefLines.XyFromL | get_reflines.py:41-51 | the lookup fails as invalid exactly when no segment spans the chainage, and divides by zero exactly when the first spanning segment has equal chainages; a point found lies on that segment, within its bounds |
| RefLines.InterpolateWithin | get_reflines.py:47-48 | the interpolated point lies between the segment's end points |
| RefLines.InRangeYieldsPoint | get_reflines.py:41-51 | with strictly increasing chainages every chainage from first to last yields a point |
| RefLines.VertexRoundTrip | get_reflines.py:41-51 | with strictly increasing chainages a vertex's own chainage gives that vertex back |
| RefLines.ShortSegmentDividesByZero | get_reflines.py:26-48 | two vertices a quarter metre apart get the same chainage, and looking it up divides by zero |
| RefLines.SegmentForFirst | get_reflines.py:42-46 | the first spanning segment is the one found |
| RefLines.Inner | get_reflines.py:55 | the filter keeps at most one coordinate per vertex |
| RefLines.InnerExactly | get_reflines.py:55 | the filter keeps exactly the line's own vertices strictly between the two chainages |
| RefLines.InnerAppend | get_reflines.py:55 | the filter keeps the line order |
| RefLines.CoordsBetween | get_reflines.py:53-57 | the point at the start, then the inner vertices, then the point at the end; missing exactly when either lookup fails |
| Seqs.RunUntil | berm.py:58-77 | a loop body run row by row yields at most one action per row, the first row's first; it ends early only at the stopping action, which occurs nowhere before the last action |
| Seqs.FilterMapAppend | get_stixes.py:25-55 | filtering two stretches of a list is filtering them one after the other |
| Seqs.FilterMapSound | get_reflines.py:55 | every value kept comes from an element of the list |
| Seqs.FilterMapComplete | get_reflines.py:55 | every element that maps to a value has that value kept |
| ClearResults.Dedup | clear_results.py:4-7 | the same lines, each once |
| ClearResults.DedupDistinct | clear_results.py:4-7 | lines without repeats are unchanged |
| ClearResults.DedupIdempotent | clear_results.py:4-7 | clearing twice is clearing once |
| ClearResults.DedupPrefix | clear_results.py:4-7 | appending lines never reorders or drops what was kept |
| ClearResults.ClearLines | clear_results.py:4-7 | the loop computes exactly the first occurrences in order |

## Left out

- File and network I/O: reading the parameter files, globbing, copying and serialising models, exporting results, removing temporary files. Logging and matplotlib plotting are left out as well (`fc_plline.py:147-257`). The model starts from the lines, stems and coordinates these produce.
- The external stability engine is represented by oracles. The berm builder is `canBuild`. The safety factor is `sf`. The per-level model preparation is `prepare`. The engine's output list is `EngineResult`. How they compute is outside the model.
- `float()`, `round(v, 2)`, `str()` of a float and `math.hypot` are abstract parameters. IEEE rounding is not modelled; all arithmetic is over exact reals.
- FcLevels.Arange: the grid is computed over exact reals. A floating-point `numpy.arange` may hold one level more or less when the span is not an exact multiple of the step.
- The model assumes `DStability.from_stix` (`berm.py:77`) succeeds. If it raises, the script ends.
- The engine's model list is not cleared when a berm row ends early, nor after the sweep (`berm.py:97-166`, `berm.py:210`). The model treats each row's calculations as independent.
- `BermParams.ActionOf` stops at `TextToBuilder` when a coordinate is still text. What the builder does with text is not part of this model.
- BermParams.Run: continues past a `TextToBuilder` action, because what follows depends on what the berm builder does with text. The script itself usually ends there. If the builder rejects the text, the error message formats the text coordinate with `:.2f` and raises (`berm.py:95`, `berm.py:115`). If the builder accepts it and the cascade reaches the sweep, `xmax - xmin` raises (`berm.py:172`). The run goes on only when the builder accepts the text and the cascade ends before the sweep.
- The extra comparison calculation of `fc_plline.py:82-111` only logs, so it is not modelled.
- Betas, failure probabilities and the model factor (`fc_plline.py:165-170`) depend on helper functions that are not part of this model. FcLevels.ReadBack keeps the levels and factors only.
- The chart step (`fc_plline.py:177-257`) is not modelled. Only its failure on an unbound or unknown levee code and on unbound chainages is modelled, by `FcParams.FcActionOf`. `P_EIS_SIG` is read there but never used. The band tuples are unpacked as `(top, bottom)` although the first value is the smaller. `FcLevels.RiskBands` calls them `start` and `stop`.
- FcParams.FcRun: continues past every `Calculate` action, because whether the script survives the chart step depends on the engine's output. The script ends there when the read-back curve is empty: `min` of an empty list raises (`fc_plline.py:177`). It also ends there when a model's level reads but its factor does not, so that levels and factors differ in length: `plot` raises at `fc_plline.py:186` and `fc_plline.py:246`. `FcLevels.ReadBack` models that case as a level without a factor, and `FcLevels.ReadBackAligned` states when the lists align.
- The worker-thread fan-out (`berm.py:174`, `berm.py:198`; the `threads` list stays empty) is not modelled. Concurrency inside the engine is not modelled either.
- The shapefile read and its geometry-type check (`get_reflines.py:16-23`) are not modelled. Neither is the dictionary of lines by name (`get_reflines.py:60-65`).
- RefLines.XyFromL: on an empty line the error message itself raises `IndexError` instead of `ValueError`. Both are modelled as `InvalidChainage`.
- BermSearch.SweepFrom: states membership in both directions but not that the candidates come in index order. The selection only needs membership.
- Text.Upper: upper-cases ASCII letters only. Python's `str.upper` also maps other scripts.
- Stixes.Chainage: assumes Python's `assert` statements run. Under `python -O` the two checks of `get_stixes.py:42-43` vanish.
- Messages printed or logged are not modelled. This includes the minimal berm's factor that `berm.py:157` and `berm.py:162` log in place of the maximal berm's and the ditch's. It also includes the format string without an `f` prefix at `fc_plline.py:66-68`.

=== FILE: berm_params.dfy ===
/** Reading the berm parameter table (berm.py:57-77). A row is
    `filename, x_min, z_min, x_max, z_max`; the levee code is the file name up to its
    first `_`. A row that fails to convert is logged but not skipped: the loop body goes
    on with whatever the Python names are bound to, which may be the previous row's
    values. The binding environment below makes that fall-through explicit. */
module BermParams {
  import opened Options
  import opened Text
  import opened ParamFile
  import opened Seqs

  /** A fully converted parameter row. */
  datatype BermRow = BermRow(filename: string, xmin: real, zmin: real, xmax: real, zmax: real, dtcode: string)

  /** The names the loop body binds while reading a row; `None` means not bound yet.
      Bindings persist from one row to the next, as Python's loop variables do. */
  datatype BermEnv = BermEnv(
    filename: Option<string>,
    xmin: Option<Value>, zmin: Option<Value>, xmax: Option<Value>, zmax: Option<Value>,
    dtcode: Option<string>)

  /** The bindings before the first row. */
  const Unbound: BermEnv := BermEnv(None, None, None, None, None, None)

  /** The bindings after the try block, and whether the block ran to its end. */
  datatype Assigned = Assigned(env: BermEnv, complete: bool)

  /** Every name bound, every coordinate converted. */
  predicate Complete(e: BermEnv) {
    && e.filename.Some? && e.dtcode.Some?
    && e.xmin.Some? && e.xmin.value.Number?
    && e.zmin.Some? && e.zmin.value.Number?
    && e.xmax.Some? && e.xmax.value.Number?
    && e.zmax.Some? && e.zmax.value.Number?
  }

  function RowOf(e: BermEnv): BermRow
    requires Complete(e)
  {
    BermRow(e.filename.value, e.xmin.value.number, e.zmin.value.number,
            e.xmax.value.number, e.zmax.value.number, e.dtcode.value)
  }

  function EnvOf(r: BermRow): BermEnv {
    BermEnv(Some(r.filename), Some(Number(r.xmin)), Some(Number(r.zmin)),
            Some(Number(r.xmax)), Some(Number(r.zmax)), Some(r.dtcode))
  }

  /** The try block of berm.py:59-65, statement by statement: the unpacking binds all
      five names or none; each `float()` rebinds one name and the first failure stops
      the block; `dtcode` is bound last. */
  function AssignRow(env: BermEnv, line: string, parseFloat: string -> Option<real>): (a: Assigned)
    ensures Count(line, ',') != 4 ==> a == Assigned(env, false)
    ensures Count(line, ',') == 4 ==> a.env.filename.Some? && a.env.xmin.Some? && a.env.zmin.Some?
                                      && a.env.xmax.Some? && a.env.zmax.Some?
  {
    match Fields(line, 5)
    case None => Assigned(env, false)
    case Some(f) => AssignFields(env, f, parseFloat)
  }

  /** The statements after a successful unpacking of the fields `f`. */
  function AssignFields(env: BermEnv, f: seq<string>, parseFloat: string -> Option<real>): (a: Assigned)
    requires |f| == 5
    ensures a.env.filename == Some(f[0])
    ensures a.env.xmin.Some? && a.env.zmin.Some? && a.env.xmax.Some? && a.env.zmax.Some?
    ensures !a.complete ==> a.env.zmax == Some(Raw(f[4])) && a.env.dtcode == env.dtcode
    ensures a.complete <==> forall k :: 1 <= k < 5 ==> parseFloat(f[k]).Some?
    ensures a.complete ==> a.env == EnvOf(BermRow(f[0], parseFloat(f[1]).value, parseFloat(f[2]).value,
                                                  parseFloat(f[3]).value, parseFloat(f[4]).value,
                                                  FirstPiece(f[0], '_')))
  {
    var e0 := BermEnv(Some(f[0]), Some(Raw(f[1])), Some(Raw(f[2])), Some(Raw(f[3])), Some(Raw(f[4])), env.dtcode);
    match parseFloat(f[1])
    case None => Assigned(e0, false)
    case Some(x0) =>
      var e1 := e0.(xmin := Some(Number(x0)));
      match parseFloat(f[2])
      case None => Assigned(e1, false)
      case Some(z0) =>
        var e2 := e1.(zmin := Some(Number(z0)));
        match parseFloat(f[3])
        case None => Assigned(e2, false)
        case Some(x1) =>
          var e3 := e2.(xmax := Some(Number(x1)));
          match parseFloat(f[4])
          case None => Assigned(e3, false)
          case Some(z1) => Assigned(e3.(zmax := Some(Number(z1)), dtcode := Some(FirstPiece(f[0], '_'))), true)
  }

  /** A row read on its own: `Some` exactly when the try block completes. */
  function ParseBermRow(line: string, parseFloat: string -> Option<real>): (r: Option<BermRow>)
    ensures Count(line, ',') != 4 ==> r.None?
    ensures r.Some? ==> IsStripped(r.value.filename) && ',' !in r.value.filename
    ensures r.Some? ==> r.value.dtcode == FirstPiece(r.value.filename, '_')
  {
    var a := AssignRow(Unbound, line, parseFloat);
    if a.complete then Some(RowOf(a.env)) else None
  }

  /** A completed block leaves nothing of the previous row behind: the bindings are
      exactly the row's, whatever they were before. */
  lemma CompleteIsFresh(env: BermEnv, line: string, parseFloat: string -> Option<real>)
    ensures AssignRow(env, line, parseFloat).complete <==> ParseBermRow(line, parseFloat).Some?
    ensures AssignRow(env, line, parseFloat).complete ==>
              AssignRow(env, line, parseFloat).env == EnvOf(ParseBermRow(line, parseFloat).value)
  {
  }

  /** A row written as five comma-separated fields, each already stripped and free of
      commas, whose four coordinates convert, reads back as those values. */
  lemma ParseFormattedRow(name: string, xs: seq<string>, parseFloat: string -> Option<real>)
    requires |xs| == 4
    requires IsStripped(name) && ',' !in name
    requires forall k :: 0 <= k < 4 ==> IsStripped(xs[k]) && ',' !in xs[k] && parseFloat(xs[k]).Some?
    ensures ParseBermRow(Join([name] + xs, ','), parseFloat)
            == Some(BermRow(name, parseFloat(xs[0]).value, parseFloat(xs[1]).value,
                            parseFloat(xs[2]).value, parseFloat(xs[3]).value, FirstPiece(name, '_')))
  {
    var f := [name] + xs;
    FieldsOfJoin(f);
    assert forall k :: 1 <= k < 5 ==> parseFloat(f[k]).Some? by {
      forall k | 1 <= k < 5 ensures parseFloat(f[k]).Some? {
        assert f[k] == xs[k - 1];
      }
    }
    assert AssignRow(Unbound, Join(f, ','), parseFloat) == AssignFields(Unbound, f, parseFloat);
  }

  /** What the loop body does with a row after its try block. */
  datatype BermAction =
    | Crash                                  // an uncaught exception ends the script
    | Search(row: BermRow, required: real)   // the berm search runs on these values
    | TextToBuilder(filename: string)        // a coordinate is still text when the berm builder gets it

  /** One pass of the loop body up to the search. */
  function RowStep(env: BermEnv, line: string, parseFloat: string -> Option<real>,
                   sfRequired: map<string, real>): (r: (BermEnv, BermAction))
    ensures ParseBermRow(line, parseFloat).Some? ==> r.0 == EnvOf(ParseBermRow(line, parseFloat).value)
    ensures Count(line, ',') != 4 ==> r.0 == env
  {
    CompleteIsFresh(env, line, parseFloat);
    var e := AssignRow(env, line, parseFloat).env;
    (e, ActionOf(e, sfRequired))
  }

  /** What follows the try block, given the bindings it left: the error message of
      berm.py:67-69 names `filename` (unbound after a failed first row), line 73 names the
      coordinates and line 75 looks the levee code up in the required-safety-factor table. */
  function ActionOf(e: BermEnv, sfRequired: map<string, real>): (act: BermAction)
    ensures act.Search? <==> Complete(e) && e.dtcode.value in sfRequired
    ensures act.Search? ==> EnvOf(act.row) == e && act.required == sfRequired[act.row.dtcode]
    ensures act.TextToBuilder? ==> Some(act.filename) == e.filename && !Complete(e)
  {
    if e.filename.None? || e.xmin.None? || e.zmin.None? || e.xmax.None? || e.zmax.None? then Crash
    else if e.dtcode.None? || e.dtcode.value !in sfRequired then Crash
    else if Complete(e) then Search(RowOf(e), sfRequired[e.dtcode.value])
    else TextToBuilder(e.filename.value)
  }

  /** The loop over the data rows, up to and including the row that crashes: one action
      per row, the first being the first row's. */
  function Run(env: BermEnv, rows: seq<string>, parseFloat: string -> Option<real>,
               sfRequired: map<string, real>): (r: seq<BermAction>)
    ensures |r| <= |rows|
    ensures forall i :: 0 <= i < |r| - 1 ==> r[i] != Crash
    ensures |r| < |rows| ==> |r| > 0 && r[|r| - 1] == Crash
    ensures |rows| > 0 ==> |r| > 0 && r[0] == RowStep(env, rows[0], parseFloat, sfRequired).1
  {
    RunUntil(env, rows, LoopBody(parseFloat, sfRequired), Crash)
  }

  /** The loop body as a step from bindings and a row to new bindings and an action. */
  function LoopBody(parseFloat: string -> Option<real>, sfRequired: map<string, real>)
    : (BermEnv, string) -> (BermEnv, BermAction)
  {
    (e, line) => RowStep(e, line, parseFloat, sfRequired)
  }

  /** A row that does not crash is followed by the run over the remaining rows. */
  lemma RunCons(env: BermEnv, rows: seq<string>, parseFloat: string -> Option<real>,
                sfRequired: map<string, real>)
    requires |rows| > 0 && RowStep(env, rows[0], parseFloat, sfRequired).1 != Crash
    ensures var (e, act) := RowStep(env, rows[0], parseFloat, sfRequired);
            Run(env, rows, parseFloat, sfRequired) == [act] + Run(e, rows[1..], parseFloat, sfRequired)
  {
    RunUntilCons(env, rows, LoopBody(parseFloat, sfRequired), Crash);
  }

  /** A row that reads completely searches with its own values, whatever came before. */
  lemma GoodRowSearchesItself(env: BermEnv, line: string, parseFloat: string -> Option<real>,
                              sfRequired: map<string, real>)
    requires ParseBermRow(line, parseFloat).Some?
    requires ParseBermRow(line, parseFloat).value.dtcode in sfRequired
    ensures var row := ParseBermRow(line, parseFloat).value;
            RowStep(env, line, parseFloat, sfRequired).1 == Search(row, sfRequired[row.dtcode])
  {
    var row := ParseBermRow(line, parseFloat).value;
    CompleteIsFresh(env, line, parseFloat);
    SearchOwnRow(row, sfRequired);
  }

  lemma SearchOwnRow(row: BermRow, sfRequired: map<string, real>)
    requires row.dtcode in sfRequired
    ensures ActionOf(EnvOf(row), sfRequired) == Search(row, sfRequired[row.dtcode])
  {
    assert RowOf(EnvOf(row)) == row;
  }

  /** A first data row without exactly five fields ends the script: the error handler
      itself names the still unbound `filename`. */
  lemma MalformedFirstRowCrashes(line: string, parseFloat: string -> Option<real>,
                                 sfRequired: map<string, real>)
    requires Count(line, ',') != 4
    ensures RowStep(Unbound, line, parseFloat, sfRequired).1 == Crash
  {
  }

  /** A later row without exactly five fields is not skipped: the previous row's search
      runs a second time. */
  lemma MalformedRowRepeatsPrevious(prev: string, line: string, parseFloat: string -> Option<real>,
                                    sfRequired: map<string, real>)
    requires ParseBermRow(prev, parseFloat).Some?
    requires ParseBermRow(prev, parseFloat).value.dtcode in sfRequired
    requires Count(line, ',') != 4
    ensures var row := ParseBermRow(prev, parseFloat).value;
            var act := Search(row, sfRequired[row.dtcode]);
            Run(Unbound, [prev, line], parseFloat, sfRequired) == [act, act]
  {
    var row := ParseBermRow(prev, parseFloat).value;
    var act := Search(row, sfRequired[row.dtcode]);
    var e := EnvOf(row);
    assert RowStep(Unbound, prev, parseFloat, sfRequired) == (e, act) by {
      GoodRowSearchesItself(Unbound, prev, parseFloat, sfRequired);
      CompleteIsFresh(Unbound, prev, parseFloat);
    }
    assert RowStep(e, line, parseFloat, sfRequired) == (e, act) by {
      SearchOwnRow(row, sfRequired);
    }
    RunCons(Unbound, [prev, line], parseFloat, sfRequired);
    assert [prev, line][1..] == [line];
    RunCons(e, [line], parseFloat, sfRequired);
    assert [line][1..] == [];
  }

  /** A row with five fields whose coordinates do not all convert never starts a search
      of its own: either the script stops or the builder is handed text. */
  lemma BadNumberNeverSearches(env: BermEnv, line: string, parseFloat: string -> Option<real>,
                               sfRequired: map<string, real>)
    requires Count(line, ',') == 4
    requires ParseBermRow(line, parseFloat).None?
    ensures !RowStep(env, line, parseFloat, sfRequired).1.Search?
  {
    var f := Fields(line, 5).value;
    var a := AssignFields(env, f, parseFloat);
    assert AssignRow(env, line, parseFloat) == a;
    assert !a.complete by {
      CompleteIsFresh(env, line, parseFloat);
    }
    RawCoordinateNeverSearches(a.env, sfRequired);
  }

  /** Bindings that still hold the text of `z_max` never reach the search. */
  lemma RawCoordinateNeverSearches(e: BermEnv, sfRequired: map<string, real>)
    requires e.zmax.Some? && e.zmax.value.Raw?
    ensures !ActionOf(e, sfRequired).Search?
  {
  }

  /** A first row with five fields whose coordinates do not all convert ends the script,
      though not in the error message: `filename` is bound there, but `dtcode` is not
      when the required factor is looked up (berm.py:75). */
  lemma FirstRowBadNumberCrashes(line: string, parseFloat: string -> Option<real>,
                                 sfRequired: map<string, real>)
    requires Count(line, ',') == 4
    requires ParseBermRow(line, parseFloat).None?
    ensures AssignRow(Unbound, line, parseFloat).env.filename == Some(Fields(line, 5).value[0])
    ensures AssignRow(Unbound, line, parseFloat).env.dtcode.None?
    ensures RowStep(Unbound, line, parseFloat, sfRequired).1 == Crash
  {
    var a := AssignFields(Unbound, Fields(line, 5).value, parseFloat);
    assert AssignRow(Unbound, line, parseFloat) == a;
    assert !a.complete by {
      CompleteIsFresh(Unbound, line, parseFloat);
    }
    assert RowStep(Unbound, line, parseFloat, sfRequired).1 == ActionOf(a.env, sfRequired);
  }

  /** A later row with five fields whose coordinates do not all convert does not repeat
      the previous search: the builder gets its own file name with a coordinate still
      text, under the previous row's levee code. */
  lemma LaterBadNumberBuildsText(prev: BermRow, line: string, parseFloat: string -> Option<real>,
                                 sfRequired: map<string, real>)
    requires prev.dtcode in sfRequired
    requires Count(line, ',') == 4
    requires ParseBermRow(line, parseFloat).None?
    ensures AssignRow(EnvOf(prev), line, parseFloat).env.dtcode == Some(prev.dtcode)
    ensures RowStep(EnvOf(prev), line, parseFloat, sfRequired).1 == TextToBuilder(Fields(line, 5).value[0])
  {
    var a := AssignFields(EnvOf(prev), Fields(line, 5).value, parseFloat);
    assert AssignRow(EnvOf(prev), line, parseFloat) == a;
    assert !a.complete by {
      CompleteIsFresh(EnvOf(prev), line, parseFloat);
    }
    assert RowStep(EnvOf(prev), line, parseFloat, sfRequired).1 == ActionOf(a.env, sfRequired);
  }
}

=== FILE: berm_search.dfy ===
/** The berm search of berm.py:77-209 for one parameter row. The stability engine is
    reached through two oracles: `canBuild` says whether the external berm builder
    produces a cross-section for a modification (it raises otherwise) and `sf` is the
    safety factor the engine computes for that cross-section. `round2` is Python's
    `round(v, 2)`. */
module BermSearch {
  import opened Options
  import opened Text
  import opened Numerals
  import opened BermParams

  /** Number of intermediate berms between the minimal and the maximal one. */
  const BermSections: nat := 10
  const SlopeTop: int := 10
  const SlopeBottom: int := 2
  const BermMaterial: string := "Dijksmateriaal (klei)_K4_Su"
  const DitchMaterial: string := "Dijksmateriaal (klei)_K4_Su"

  /** A modification of the base cross-section. */
  datatype Geometry =
    | Unchanged
    | Berm(soil: string, x: real, z: real, slopeBottom: int, slopeTop: int)
    | FilledDitch(soil: string)

  /** The berm whose crest point is fixed at `(x, z)`, with the script's material and slopes. */
  function BermAt(x: real, z: real): Geometry {
    Berm(BermMaterial, x, z, SlopeBottom, SlopeTop)
  }

  /** Where the fixed cascade of berm.py:145-164 stops. */
  datatype Verdict = InitialSuffices | MinSuffices | MaxFails | DitchSuffices | Sweep

  /** The cascade over the four first results, in its fixed order, each test `>=` the
      requirement except the "no solution" test on the maximal berm. */
  function Cascade(ini: real, min: real, max: real, ditch: real, req: real): (v: Verdict)
    ensures v == InitialSuffices <==> req <= ini
    ensures v == MinSuffices <==> ini < req <= min
    ensures v == MaxFails <==> ini < req && min < req && max < req
    ensures v == DitchSuffices <==> ini < req && min < req && req <= max && req <= ditch
    ensures v == Sweep <==> ini < req && min < req && req <= max && ditch < req
  {
    if ini >= req then InitialSuffices
    else if min >= req then MinSuffices
    else if max < req then MaxFails
    else if ditch >= req then DitchSuffices
    else Sweep
  }

  /** A filled ditch that would pass is never reported when the maximal berm fails. */
  lemma DitchNeverAfterFailingMax(ini: real, min: real, max: real, ditch: real, req: real)
    requires max < req
    ensures Cascade(ini, min, max, ditch, req) != DitchSuffices
  {
  }

  /** The `i`-th (0-based) of `n` points cutting `[a, b]` into `n + 1` equal steps; with
      `a < b` every one of them lies strictly inside `(a, b)`. */
  function Interpolate(a: real, b: real, n: nat, i: nat): (r: real)
    ensures a < b && i < n ==> a < r < b
  {
    StepsInside(b - a, (i + 1) as real, (n + 1) as real);
    a + (i + 1) as real * (b - a) / (n + 1) as real
  }

  /** `k` of `m` equal steps over a positive span stay strictly inside it. */
  lemma StepsInside(d: real, k: real, m: real)
    ensures 0.0 < d && 0.0 < k < m ==> 0.0 < k * d / m < d
  {
    if 0.0 < d && 0.0 < k < m {
      assert 0.0 < k * d < m * d;
    }
  }

  /** Consecutive points are one step apart. */
  lemma InterpolateEvenlySpaced(a: real, b: real, n: nat, i: nat)
    ensures Interpolate(a, b, n, i + 1) - Interpolate(a, b, n, i) == (b - a) / (n + 1) as real
  {
    var m := (n + 1) as real;
    assert (i + 2) as real * (b - a) / m - (i + 1) as real * (b - a) / m == (b - a) / m;
  }

  /** With `a < b` the points strictly increase. */
  lemma InterpolateIncreasing(a: real, b: real, n: nat, i: nat, j: nat)
    requires a < b && i < j
    ensures Interpolate(a, b, n, i) < Interpolate(a, b, n, j)
  {
    var d, m := b - a, (n + 1) as real;
    assert (i + 1) as real * d < (j + 1) as real * d;
    DivideMonotone((i + 1) as real * d, (j + 1) as real * d, m);
  }

  lemma DivideMonotone(x: real, y: real, m: real)
    requires x < y && m > 0.0
    ensures x / m < y / m
  {
  }

  /** The intermediate berm points as berm.py:170-180 computes them: `x` and `z` start at
      the minimal berm and grow by a fixed step before each candidate. */
  method SweepPoints(xmin: real, zmin: real, xmax: real, zmax: real) returns (pts: seq<(real, real)>)
    ensures |pts| == BermSections
    ensures forall i :: 0 <= i < BermSections ==>
              pts[i] == (Interpolate(xmin, xmax, BermSections, i), Interpolate(zmin, zmax, BermSections, i))
  {
    var m := (BermSections + 1) as real;
    var xstep := (xmax - xmin) / m;
    var zstep := (zmax - zmin) / m;
    var x, z := xmin, zmin;
    pts := [];
    var i := 0;
    while i < BermSections
      invariant 0 <= i <= BermSections && |pts| == i
      invariant x == xmin + i as real * xstep && z == zmin + i as real * zstep
      invariant forall k :: 0 <= k < i ==>
                  pts[k] == (Interpolate(xmin, xmax, BermSections, k), Interpolate(zmin, zmax, BermSections, k))
    {
      x := x + xstep;
      z := z + zstep;
      assert x == Interpolate(xmin, xmax, BermSections, i);
      assert z == Interpolate(zmin, zmax, BermSections, i);
      pts := pts + [(x, z)];
      i := i + 1;
    }
  }

  /** The label `f"{dtcode}_berm_{i:0d}"` of the `i`-th intermediate berm: the levee code,
      `_berm_`, and digits that read back as the index. */
  function Label(dtcode: string, i: nat): (r: string)
    ensures |r| > |dtcode| + 6 && r[..|dtcode| + 6] == dtcode + "_berm_"
    ensures AllDigits(r[|dtcode| + 6..]) && DigitsValue(r[|dtcode| + 6..]) == i
  {
    var r := dtcode + "_berm_" + NatToString(i);
    assert r[|dtcode| + 6..] == NatToString(i);
    NatToStringRoundTrip(i);
    r
  }

  /** Distinct indices get distinct labels, so the engine's result dictionary keeps one
      entry per candidate. */
  lemma LabelsDistinct(dtcode: string, i: nat, j: nat)
    requires i != j
    ensures Label(dtcode, i) != Label(dtcode, j)
  {
  }

  /** For indices below ten (there are `BermSections` = 10 of them) the label order is
      the index order. */
  lemma LabelOrderIsIndexOrder(dtcode: string, i: nat, j: nat)
    requires i < 10 && j < 10
    ensures LexLess(Label(dtcode, i), Label(dtcode, j)) <==> i < j
  {
    LexLessCommonPrefix(dtcode + "_berm_", NatToString(i), NatToString(j));
  }

  /** With more than ten sections the orders would part: "_berm_10" sorts before "_berm_2". */
  lemma LabelOrderPartsAtTen(dtcode: string)
    ensures LexLess(Label(dtcode, 10), Label(dtcode, 2))
  {
    LexLessCommonPrefix(dtcode + "_berm_", NatToString(10), NatToString(2));
    assert NatToString(10) == "10";
  }

  /** One intermediate berm that was built: its index, its label and its safety factor. */
  datatype Candidate = Candidate(index: nat, name: string, sf: real)

  /** The geometry of the `i`-th intermediate berm, at the rounded point. */
  function SweepGeometry(row: BermRow, round2: real -> real, i: nat): Geometry {
    BermAt(round2(Interpolate(row.xmin, row.xmax, BermSections, i)),
           round2(Interpolate(row.zmin, row.zmax, BermSections, i)))
  }

  /** `c` is what the engine reports for the `c.index`-th berm of `row`. */
  predicate IsSweepResult(row: BermRow, round2: real -> real, canBuild: Geometry -> bool,
                          sf: Geometry -> real, c: Candidate)
  {
    && c.index < BermSections
    && canBuild(SweepGeometry(row, round2, c.index))
    && c.name == Label(row.dtcode, c.index)
    && c.sf == sf(SweepGeometry(row, round2, c.index))
  }

  /** The candidate the engine reports for the `j`-th berm when it is built. */
  function SweepCandidate(row: BermRow, round2: real -> real, sf: Geometry -> real, j: nat): Candidate {
    Candidate(j, Label(row.dtcode, j), sf(SweepGeometry(row, round2, j)))
  }

  /** The built intermediate berms with index `i` or more: a berm whose builder raises is
      left out (berm.py:191-196), the others keep their index and label. */
  function SweepFrom(row: BermRow, round2: real -> real, canBuild: Geometry -> bool,
                     sf: Geometry -> real, i: nat): (cs: seq<Candidate>)
    requires i <= BermSections
    ensures forall c :: c in cs ==> i <= c.index && IsSweepResult(row, round2, canBuild, sf, c)
    ensures forall j :: i <= j < BermSections && canBuild(SweepGeometry(row, round2, j)) ==>
              SweepCandidate(row, round2, sf, j) in cs
    decreases BermSections - i
  {
    if i == BermSections then []
    else
      var rest := SweepFrom(row, round2, canBuild, sf, i + 1);
      if canBuild(SweepGeometry(row, round2, i)) then
        [SweepCandidate(row, round2, sf, i)] + rest
      else rest
  }

  /** berm.py:202-204: sort the results by label, keep those with a safety factor strictly
      above the requirement, take the first. That is the passing result with the least
      label (the earliest one among equal labels, as Python's sort is stable). */
  function SelectByLabel(cs: seq<Candidate>, req: real): (r: Option<Candidate>)
    ensures r.Some? ==> r.value in cs && r.value.sf > req
    ensures r.Some? ==> forall c :: c in cs && c.sf > req ==> LexLessEq(r.value.name, c.name)
    ensures r.None? <==> forall c :: c in cs ==> c.sf <= req
  {
    if |cs| == 0 then None
    else
      var rest := SelectByLabel(cs[1..], req);
      LexLessEqTransitive();
      LexLessEqTotal();
      assert forall c :: c in cs ==> c == cs[0] || c in cs[1..];
      if cs[0].sf > req && (rest.None? || LexLessEq(cs[0].name, rest.value.name)) then Some(cs[0])
      else rest
  }

  /** How the search for one row ends. */
  datatype Outcome =
    | Abandoned(failed: Geometry)   // the minimal berm, the maximal berm or the filled ditch could not be built
    | InitialOk                     // the unchanged cross-section already suffices
    | MinBermOk                     // the minimal berm suffices
    | NoSolution                    // even the maximal berm falls short
    | DitchOk                       // filling the ditch suffices
    | Selected(choice: Candidate)   // the first intermediate berm, by label, that passes
    | NoneSuffices                  // no intermediate berm passes

  /** The result of the interpolation sweep (berm.py:166-209). Every built berm before the
      selected one, in index order, fails the strict test. */
  function SweepOutcome(row: BermRow, req: real, canBuild: Geometry -> bool,
                        sf: Geometry -> real, round2: real -> real): (o: Outcome)
    ensures o.Selected? || o.NoneSuffices?
    ensures o.Selected? ==> IsSweepResult(row, round2, canBuild, sf, o.choice) && o.choice.sf > req
    ensures o.Selected? ==> forall j :: 0 <= j < o.choice.index && canBuild(SweepGeometry(row, round2, j))
                              ==> sf(SweepGeometry(row, round2, j)) <= req
    ensures o.NoneSuffices? <==> forall j :: 0 <= j < BermSections && canBuild(SweepGeometry(row, round2, j))
                                   ==> sf(SweepGeometry(row, round2, j)) <= req
  {
    var cs := SweepFrom(row, round2, canBuild, sf, 0);
    match SelectByLabel(cs, req)
    case Some(c) =>
      assert forall j :: 0 <= j < c.index && canBuild(SweepGeometry(row, round2, j))
                         ==> sf(SweepGeometry(row, round2, j)) <= req by {
        forall j | 0 <= j < c.index && canBuild(SweepGeometry(row, round2, j))
          ensures sf(SweepGeometry(row, round2, j)) <= req
        {
          EarlierFails(row, req, canBuild, sf, round2, cs, c, j);
        }
      }
      Selected(c)
    case None =>
      NoneSuffices
  }

  /** The step of `SweepOutcome`'s proof: a passing berm before the selected one would have
      a smaller label. */
  lemma EarlierFails(row: BermRow, req: real, canBuild: Geometry -> bool, sf: Geometry -> real,
                     round2: real -> real, cs: seq<Candidate>, c: Candidate, j: nat)
    requires cs == SweepFrom(row, round2, canBuild, sf, 0)
    requires SelectByLabel(cs, req) == Some(c)
    requires j < c.index && canBuild(SweepGeometry(row, round2, j))
    ensures sf(SweepGeometry(row, round2, j)) <= req
  {
    var d := SweepCandidate(row, round2, sf, j);
    assert d in cs;
    if d.sf > req {
      assert LexLessEq(c.name, d.name);
      LabelOrderIsIndexOrder(row.dtcode, j, c.index);
      LexLessIrreflexive(c.name);
      if c.name != d.name {
        LexLessTransitive(c.name, d.name, c.name);
      }
    }
  }

  /** The whole search for one row (berm.py:77-209). The three fixed modifications are
      built first and any failure abandons the row; then the cascade decides, and only if
      every test falls through the intermediate berms are tried. */
  function Search(row: BermRow, req: real, canBuild: Geometry -> bool,
                  sf: Geometry -> real, round2: real -> real): (o: Outcome)
    ensures o.Abandoned? <==> !canBuild(BermAt(row.xmin, row.zmin)) || !canBuild(BermAt(row.xmax, row.zmax))
                               || !canBuild(FilledDitch(DitchMaterial))
    ensures o.Abandoned? ==> !canBuild(o.failed)
    ensures !o.Abandoned? ==> (o == InitialOk <==> req <= sf(Unchanged))
    ensures !o.Abandoned? ==> (o == MinBermOk <==> sf(Unchanged) < req <= sf(BermAt(row.xmin, row.zmin)))
    ensures !o.Abandoned? ==>
              (o == NoSolution <==> sf(Unchanged) < req && sf(BermAt(row.xmin, row.zmin)) < req
                                    && sf(BermAt(row.xmax, row.zmax)) < req)
    ensures !o.Abandoned? ==>
              (o == DitchOk <==> sf(Unchanged) < req && sf(BermAt(row.xmin, row.zmin)) < req
                                 && req <= sf(BermAt(row.xmax, row.zmax)) && req <= sf(FilledDitch(DitchMaterial)))
    ensures !o.Abandoned? ==>
              (o.Selected? || o.NoneSuffices? <==>
                 sf(Unchanged) < req && sf(BermAt(row.xmin, row.zmin)) < req
                 && req <= sf(BermAt(row.xmax, row.zmax)) && sf(FilledDitch(DitchMaterial)) < req)
    ensures !o.Abandoned? ==>
              (o.NoneSuffices? <==>
                 sf(Unchanged) < req && sf(BermAt(row.xmin, row.zmin)) < req
                 && req <= sf(BermAt(row.xmax, row.zmax)) && sf(FilledDitch(DitchMaterial)) < req
                 && forall j :: 0 <= j < BermSections && canBuild(SweepGeometry(row, round2, j))
                      ==> sf(SweepGeometry(row, round2, j)) <= req)
    ensures o.Selected? ==> IsSweepResult(row, round2, canBuild, sf, o.choice) && o.choice.sf > req
    ensures o.Selected? ==> forall j :: 0 <= j < o.choice.index && canBuild(SweepGeometry(row, round2, j))
                              ==> sf(SweepGeometry(row, round2, j)) <= req
  {
    var gmin := BermAt(row.xmin, row.zmin);
    var gmax := BermAt(row.xmax, row.zmax);
    var gditch := FilledDitch(DitchMaterial);
    if !canBuild(gmin) then Abandoned(gmin)
    else if !canBuild(gmax) then Abandoned(gmax)
    else if !canBuild(gditch) then Abandoned(gditch)
    else
      match Cascade(sf(Unchanged), sf(gmin), sf(gmax), sf(gditch), req)
      case InitialSuffices => InitialOk
      case MinSuffices => MinBermOk
      case MaxFails => NoSolution
      case DitchSuffices => DitchOk
      case Sweep => SweepOutcome(row, req, canBuild, sf, round2)
  }

  /** All four fixed candidates fail while the maximal berm passes, and none of the
      intermediate berms passes: the row ends without a solution. */
  lemma NoIntermediatePasses(row: BermRow, req: real, canBuild: Geometry -> bool,
                             sf: Geometry -> real, round2: real -> real)
    requires canBuild(BermAt(row.xmin, row.zmin)) && canBuild(BermAt(row.xmax, row.zmax))
    requires canBuild(FilledDitch(DitchMaterial))
    requires sf(Unchanged) < req && sf(BermAt(row.xmin, row.zmin)) < req
    requires req <= sf(BermAt(row.xmax, row.zmax)) && sf(FilledDitch(DitchMaterial)) < req
    requires forall j :: 0 <= j < BermSections ==> sf(SweepGeometry(row, round2, j)) <= req
    ensures Search(row, req, canBuild, sf, round2) == NoneSuffices
  {
  }

  /** The cascade accepts a factor equal to the requirement, the sweep does not. */
  lemma EqualityAcceptedOnlyByCascade(row: BermRow, req: real, canBuild: Geometry -> bool,
                                      sf: Geometry -> real, round2: real -> real)
    requires canBuild(BermAt(row.xmin, row.zmin)) && canBuild(BermAt(row.xmax, row.zmax))
    requires canBuild(FilledDitch(DitchMaterial))
    requires sf(Unchanged) < req
    ensures sf(BermAt(row.xmin, row.zmin)) == req ==> Search(row, req, canBuild, sf, round2) == MinBermOk
    ensures var o := Search(row, req, canBuild, sf, round2); o.Selected? ==> o.choice.sf != req
  {
  }

  /** A row whose minimal berm cannot be built is abandoned even when the unchanged
      cross-section would already have sufficed: the engine runs only after all three
      fixed modifications are built. */
  lemma AbandonedBeforeInitialCheck(row: BermRow, req: real, canBuild: Geometry -> bool,
                                    sf: Geometry -> real, round2: real -> real)
    requires !canBuild(BermAt(row.xmin, row.zmin))
    ensures Search(row, req, canBuild, sf, round2) == Abandoned(BermAt(row.xmin, row.zmin))
  {
  }
}

=== FILE: clear_results.dfy ===
/** Removing repeated lines from the results table (clear_results.py): a line is kept
    when it has not been kept before, so the first occurrence of every line survives in
    its original position. */
module ClearResults {
  /** The lines of `lines` in order, each only at its first occurrence. */
  function Dedup(lines: seq<string>): (r: seq<string>)
    ensures forall x :: x in r <==> x in lines
    ensures forall i, j :: 0 <= i < j < |r| ==> r[i] != r[j]
    ensures |r| <= |lines|
    decreases |lines|
  {
    if |lines| == 0 then []
    else
      var init := Dedup(lines[..|lines| - 1]);
      var last := lines[|lines| - 1];
      assert forall x :: x in lines <==> x in lines[..|lines| - 1] || x == last;
      if last in init then init else init + [last]
  }

  /** Lines without repeats are left as they are. */
  lemma {:induction false} DedupDistinct(lines: seq<string>)
    requires forall i, j :: 0 <= i < j < |lines| ==> lines[i] != lines[j]
    ensures Dedup(lines) == lines
    decreases |lines|
  {
    if |lines| > 0 {
      var init := lines[..|lines| - 1];
      DedupDistinct(init);
      assert lines[|lines| - 1] !in init;
      assert init + [lines[|lines| - 1]] == lines;
    }
  }

  /** Clearing twice is clearing once. */
  lemma DedupIdempotent(lines: seq<string>)
    ensures Dedup(Dedup(lines)) == Dedup(lines)
  {
    DedupDistinct(Dedup(lines));
  }

  /** The kept lines appear in the order of their first occurrences: appending lines
      never reorders what was kept. */
  lemma {:induction false} DedupPrefix(a: seq<string>, b: seq<string>)
    ensures |Dedup(a)| <= |Dedup(a + b)| && Dedup(a + b)[..|Dedup(a)|] == Dedup(a)
    decreases |b|
  {
    if |b| == 0 {
      assert a + b == a;
    } else {
      var ab := a + b;
      assert ab[..|ab| - 1] == a + b[..|b| - 1];
      DedupPrefix(a, b[..|b| - 1]);
    }
  }

  /** The loop of clear_results.py:4-7. */
  method ClearLines(lines: seq<string>) returns (result: seq<string>)
    ensures result == Dedup(lines)
  {
    result := [];
    var i := 0;
    while i < |lines|
      invariant 0 <= i <= |lines|
      invariant result == Dedup(lines[..i])
    {
      assert lines[..i + 1][..i] == lines[..i];
      if !(lines[i] in result) {
        result := result + [lines[i]];
      }
      i := i + 1;
    }
    assert lines[..|lines|] == lines;
  }
}

=== FILE: fc_levels.dfy ===
/** The numeric and naming parts of the fragility-curve driver (fc_plline.py): the grid of
    river levels, the output file names the levels are recovered from, reading the
    engine's results back, and the six risk-category bands of the failure-probability
    chart. `numpy.arange` is modelled over exact reals. */
module FcLevels {
  import opened Options
  import opened Text
  import opened Numerals

  /** `numpy.arange(start, stop, step)` for `step > 0`, over exact reals: `start`,
      `start + step`, ... for as long as the value stays below `stop`. */
  function Arange(start: real, stop: real, step: real): (r: seq<real>)
    requires step > 0.0
    ensures |r| > 0 ==> r[0] == start
    ensures forall i :: 0 <= i < |r| - 1 ==> r[i + 1] == r[i] + step
    ensures forall i :: 0 <= i < |r| ==> r[i] < stop
    ensures start + |r| as real * step >= stop
  {
    var n := if stop <= start then 0 else Ceil((stop - start) / step);
    StepsFacts(start, stop, step, n);
    Steps(start, step, n)
  }

  /** `n` values from `start` on, `step` apart. */
  function Steps(start: real, step: real, n: nat): (r: seq<real>)
    ensures |r| == n
    ensures forall i :: 0 <= i < n ==> r[i] == start + i as real * step
  {
    seq(n, i requires 0 <= i < n => start + i as real * step)
  }

  /** The `Ceil((stop - start) / step)` values from `start` on stay below `stop`, each
      one step above the last, and one more step would reach `stop`. */
  lemma StepsFacts(start: real, stop: real, step: real, n: nat)
    requires step > 0.0
    requires n == if stop <= start then 0 else Ceil((stop - start) / step)
    ensures forall i :: 0 <= i < n - 1 ==> Steps(start, step, n)[i + 1] == Steps(start, step, n)[i] + step
    ensures forall i :: 0 <= i < n ==> Steps(start, step, n)[i] < stop
    ensures start + n as real * step >= stop
  {
    StepsApart(start, step, n);
    StepsBelowStop(start, stop, step, n);
    if stop > start {
      StepsReach(n as real, stop - start, step);
    }
  }

  lemma StepsApart(start: real, step: real, n: nat)
    ensures forall i :: 0 <= i < n - 1 ==> Steps(start, step, n)[i + 1] == Steps(start, step, n)[i] + step
  {
    var r := Steps(start, step, n);
    forall i | 0 <= i < n - 1
      ensures r[i + 1] == r[i] + step
    {
      NextStep(i as real, step);
    }
  }

  lemma StepsBelowStop(start: real, stop: real, step: real, n: nat)
    requires step > 0.0
    requires n == if stop <= start then 0 else Ceil((stop - start) / step)
    ensures forall i :: 0 <= i < n ==> Steps(start, step, n)[i] < stop
  {
    var r := Steps(start, step, n);
    forall i | 0 <= i < n
      ensures r[i] < stop
    {
      assert (i as real) < (stop - start) / step;
      StepsBelow(i as real, stop - start, step);
    }
  }

  lemma NextStep(m: real, step: real)
    ensures (m + 1.0) * step == m * step + step
  {
  }

  /** Fewer than `span / step` steps stay short of `span`. */
  lemma StepsBelow(m: real, span: real, step: real)
    requires step > 0.0 && m < span / step
    ensures m * step < span
  {
    assert span / step * step == span;
  }

  /** At least `span / step` steps reach `span`. */
  lemma StepsReach(m: real, span: real, step: real)
    requires step > 0.0 && m >= span / step
    ensures m * step >= span
  {
    assert span / step * step == span;
  }

  /** The river levels of fc_plline.py:115, `arange(min_level, max_level + 0.5 * step_size,
      step_size)`: every level lies below `max_level` plus half a step. */
  function LevelGrid(minLevel: real, maxLevel: real, stepSize: real): (r: seq<real>)
    requires stepSize > 0.0
    ensures forall i :: 0 <= i < |r| ==> r[i] < maxLevel + stepSize / 2.0
  {
    Arange(minLevel, maxLevel + stepSize / 2.0, stepSize)
  }

  /** When the span is a whole number `k` of steps the grid has `k + 1` levels and ends
      exactly at `max_level`. */
  lemma GridIncludesMax(minLevel: real, maxLevel: real, stepSize: real, k: nat)
    requires stepSize > 0.0
    requires maxLevel - minLevel == k as real * stepSize
    ensures |LevelGrid(minLevel, maxLevel, stepSize)| == k + 1
    ensures LevelGrid(minLevel, maxLevel, stepSize)[k] == maxLevel
  {
    var stop := maxLevel + stepSize / 2.0;
    var q := (stop - minLevel) / stepSize;
    assert stop - minLevel == (k as real + 0.5) * stepSize;
    DivOfMultiple(stop - minLevel, k as real + 0.5, stepSize);
    assert q == k as real + 0.5;
    var n := Ceil(q);
    assert n as real < q + 1.0;
    assert q + 1.0 == k as real + 1.5;
    assert n as real > k as real && (n as real) < k as real + 2.0;
    assert n > k && n < k + 2;
  }

  lemma DivOfMultiple(x: real, a: real, c: real)
    requires c != 0.0 && x == a * c
    ensures x / c == a
  {
  }

  /** Every level of the grid is `min_level` plus a whole number of steps. */
  lemma {:induction false} GridLevels(minLevel: real, maxLevel: real, stepSize: real, i: nat)
    requires stepSize > 0.0
    requires i < |LevelGrid(minLevel, maxLevel, stepSize)|
    ensures LevelGrid(minLevel, maxLevel, stepSize)[i] == minLevel + i as real * stepSize
  {
    if i > 0 {
      GridLevels(minLevel, maxLevel, stepSize, i - 1);
    }
  }

  /** The levels whose model was prepared before the first failure: the loop of
      fc_plline.py:115-132 sits in one try block, so an exception while copying, parsing
      or regenerating the water net for one level drops it and every later level. */
  function PreparedPrefix(levels: seq<real>, prepare: real -> bool): (r: seq<real>)
    ensures |r| <= |levels| && r == levels[..|r|]
    ensures forall i :: 0 <= i < |r| ==> prepare(r[i])
    ensures |r| < |levels| ==> !prepare(levels[|r|])
  {
    if |levels| == 0 || !prepare(levels[0]) then []
    else
      var rest := PreparedPrefix(levels[1..], prepare);
      assert levels[1..][..|rest|] == levels[1..|rest| + 1];
      [levels[0]] + rest
  }

  /** The output file of one level, `f"{filename}_{river_level}.stix"` (fc_plline.py:120),
      with `levelText` the text `str()` gives the level. */
  function OutputName(filename: string, levelText: string): (r: string)
    ensures |r| == |filename| + |levelText| + 6
    ensures r[..|filename| + 1] == filename + "_" && r[|r| - 5..] == StixSuffix
    ensures '_' !in levelText && !Contains(levelText, StixSuffix) ==> LevelText(r) == levelText
  {
    var r := filename + "_" + levelText + StixSuffix;
    assert r[..|filename| + 1] == filename + "_";
    LevelTextRoundTrip(filename, levelText);
    r
  }

  /** The level text recovered from an output name (fc_plline.py:160): the part after the
      last `_`, with every `.stix` removed. It never holds a `_`, and a name with no `_` in
      it is read whole. */
  function LevelText(name: string): (r: string)
    ensures '_' !in r
    ensures '_' !in name ==> r == RemoveAll(name, StixSuffix)
  {
    var parts := Split(name, '_');
    RemoveAllKeepsOut(parts[|parts| - 1], StixSuffix, '_');
    SplitWhole(name, '_');
    RemoveAll(parts[|parts| - 1], StixSuffix)
  }

  /** Naming a file after a level and reading the level text back is the identity, for a
      level text with no `_` and no `.stix` in it (what `str()` of a float produces). */
  lemma LevelTextRoundTrip(filename: string, levelText: string)
    ensures '_' !in levelText && !Contains(levelText, StixSuffix) ==>
              LevelText(filename + "_" + levelText + StixSuffix) == levelText
  {
    if '_' in levelText || Contains(levelText, StixSuffix) {
      return;
    }
    var b := levelText + StixSuffix;
    assert filename + "_" + levelText + StixSuffix == filename + ['_'] + b;
    assert '_' !in b;
    LastPiece(filename, b, '_');
    RemoveStixSuffix(levelText);
  }

  /** The level read back from an output name with Python's `float()`. */
  function ReadLevel(name: string, parseFloat: string -> Option<real>): Option<real> {
    parseFloat(LevelText(name))
  }

  /** With a float formatter `show` that `parseFloat` inverts, every level comes back from
      the name of its output file. */
  lemma LevelRoundTrip(filename: string, level: real, show: real -> string,
                       parseFloat: string -> Option<real>)
    requires parseFloat(show(level)) == Some(level)
    requires '_' !in show(level) && !Contains(show(level), StixSuffix)
    ensures ReadLevel(OutputName(filename, show(level)), parseFloat) == Some(level)
  {
  }

  /** One model as the engine hands it back: its file name and the safety factor of its
      last output, `None` when reading that raises. */
  datatype EngineResult = EngineResult(name: string, sf: Option<real>)

  /** The two lists fc_plline.py:151-175 fills for the chart. */
  datatype Curve = Curve(levels: seq<real>, sfs: seq<real>)

  /** Reading the results back (fc_plline.py:156-175), model by model: a name whose level
      does not convert adds nothing; a level is appended before its safety factor is read,
      so a missing factor leaves the two lists misaligned. */
  function ReadBack(models: seq<EngineResult>, parseFloat: string -> Option<real>): (c: Curve)
    ensures |c.sfs| <= |c.levels| <= |models|
    ensures |c.sfs| == |c.levels| <==>
              forall i :: 0 <= i < |models| && ReadLevel(models[i].name, parseFloat).Some? ==> models[i].sf.Some?
  {
    if |models| == 0 then Curve([], [])
    else
      var rest := ReadBack(models[1..], parseFloat);
      assert forall i :: 1 <= i < |models| ==> models[i] == models[1..][i - 1];
      match ReadLevel(models[0].name, parseFloat)
      case None => rest
      case Some(l) =>
        match models[0].sf
        case None => Curve([l] + rest.levels, rest.sfs)
        case Some(s) => Curve([l] + rest.levels, [s] + rest.sfs)
  }

  /** If the engine returns the prepared models in order, under their own names, with a
      factor each, the curve pairs every prepared level with its factor. */
  lemma {:induction false} ReadBackRoundTrip(filename: string, levels: seq<real>, sfs: seq<real>,
                                             show: real -> string, parseFloat: string -> Option<real>)
    requires |levels| == |sfs|
    requires forall i :: 0 <= i < |levels| ==>
               parseFloat(show(levels[i])) == Some(levels[i])
               && '_' !in show(levels[i]) && !Contains(show(levels[i]), StixSuffix)
    ensures ReadBack(seq(|levels|, i requires 0 <= i < |levels| =>
                       EngineResult(OutputName(filename, show(levels[i])), Some(sfs[i]))), parseFloat)
            == Curve(levels, sfs)
  {
    var models := seq(|levels|, i requires 0 <= i < |levels| =>
                    EngineResult(OutputName(filename, show(levels[i])), Some(sfs[i])));
    forall i | 0 <= i < |levels|
      ensures ReadLevel(models[i].name, parseFloat) == Some(levels[i])
    {
      LevelRoundTrip(filename, levels[i], show, parseFloat);
    }
    ReadBackAligned(models, levels, sfs, parseFloat);
  }

  /** Models whose names give `levels` and which carry `sfs` read back as exactly those
      two lists. */
  lemma {:induction false} ReadBackAligned(models: seq<EngineResult>, levels: seq<real>, sfs: seq<real>,
                                           parseFloat: string -> Option<real>)
    requires |models| == |levels| == |sfs|
    requires forall i :: 0 <= i < |models| ==>
               ReadLevel(models[i].name, parseFloat) == Some(levels[i]) && models[i].sf == Some(sfs[i])
    ensures ReadBack(models, parseFloat) == Curve(levels, sfs)
    decreases |models|
  {
    if |models| > 0 {
      var tail := models[1..];
      forall i | 0 <= i < |tail|
        ensures ReadLevel(tail[i].name, parseFloat) == Some(levels[1..][i]) && tail[i].sf == Some(sfs[1..][i])
      {
        assert tail[i] == models[i + 1];
      }
      ReadBackAligned(tail, levels[1..], sfs[1..], parseFloat);
      assert ReadBack(models, parseFloat) == Curve([levels[0]] + levels[1..], [sfs[0]] + sfs[1..]) by {
        ReadBackFirst(models, levels[0], sfs[0], parseFloat);
      }
      assert levels == [levels[0]] + levels[1..];
      assert sfs == [sfs[0]] + sfs[1..];
    }
  }

  /** A first model with a level and a factor puts both in front of the rest. */
  lemma ReadBackFirst(models: seq<EngineResult>, level: real, sf: real, parseFloat: string -> Option<real>)
    requires |models| > 0
    requires ReadLevel(models[0].name, parseFloat) == Some(level) && models[0].sf == Some(sf)
    ensures ReadBack(models, parseFloat)
            == Curve([level] + ReadBack(models[1..], parseFloat).levels, [sf] + ReadBack(models[1..], parseFloat).sfs)
  {
  }

  /** One colour band of the failure-probability chart, `(top, bottom, label, colour)` as
      fc_plline.py:196-231 writes it; the two bounds are called `start` and `stop` here. */
  datatype Band = Band(start: real, stop: real, name: string, color: string)

  /** The six risk categories of fc_plline.py:196-231, from the signalling and lower-limit
      probabilities of the levee section (`P_EIS_SIG_DSN`, `P_EIS_OND_DSN`, `P_EIS_OND`):
      they start at 0, end at 1, and each band starts where the previous one stops. */
  function RiskBands(sigDsn: real, ondDsn: real, ond: real): (bands: seq<Band>)
    ensures |bands| == 6
    ensures bands[0].start == 0.0 && bands[5].stop == 1.0
    ensures forall k :: 0 <= k < 5 ==> bands[k].stop == bands[k + 1].start
  {
    [ Band(0.0, 1.0 / 30.0 * sigDsn, "Iv voldoet ruim aan signaleringswaarde", "#00ff00"),
      Band(1.0 / 30.0 * sigDsn, sigDsn, "IIv voldoet aan signaleringswaarde", "#76933c"),
      Band(sigDsn, ondDsn, "IIIv voldoet aan de ondergrens en mogelijk de signaleringswaarde", "#ffff00"),
      Band(ondDsn, ond, "IVv voldoet mogelijk aan de ondergrens of aan de signaleringwaarde", "#ccc0da"),
      Band(ond, 30.0 * ond, "Vv voldoet niet aan de ondergrens", "#ff9900"),
      Band(30.0 * ond, 1.0, "VIv voldoet ruim niet aan de ondergrens", "#ff0000") ]
  }

  /** Every band is non-empty exactly when the probabilities are ordered as a norm
      demands: `0 < sigDsn < ondDsn < ond` and thirty times `ond` below 1. */
  lemma BandsNonEmptyIff(sigDsn: real, ondDsn: real, ond: real)
    ensures var b := RiskBands(sigDsn, ondDsn, ond);
            (forall k :: 0 <= k < 6 ==> b[k].start < b[k].stop)
            <==> (0.0 < sigDsn < ondDsn < ond && 30.0 * ond < 1.0)
  {
    var b := RiskBands(sigDsn, ondDsn, ond);
    if forall k :: 0 <= k < 6 ==> b[k].start < b[k].stop {
      assert b[0].start < b[0].stop && b[2].start < b[2].stop && b[3].start < b[3].stop;
      assert b[5].start < b[5].stop;
    }
  }

  /** Index of the band whose half-open interval `[start, stop)` holds `p`. */
  function BandOf(bands: seq<Band>, p: real): (k: nat)
    requires |bands| >= 1 && bands[0].start <= p < bands[|bands| - 1].stop
    requires forall k :: 0 <= k < |bands| - 1 ==> bands[k].stop == bands[k + 1].start
    ensures k < |bands| && bands[k].start <= p < bands[k].stop
  {
    if p < bands[0].stop then 0
    else
      assert |bands| > 1;
      1 + BandOf(bands[1..], p)
  }

  /** With ordered probabilities the bands split `[0, 1)`: every probability in it lies in
      exactly one band. */
  lemma BandsPartition(sigDsn: real, ondDsn: real, ond: real, p: real)
    requires 0.0 < sigDsn < ondDsn < ond && 30.0 * ond < 1.0
    requires 0.0 <= p < 1.0
    ensures var b := RiskBands(sigDsn, ondDsn, ond);
            var k := BandOf(b, p);
            forall l :: 0 <= l < 6 && b[l].start <= p < b[l].stop ==> l == k
  {
    var b := RiskBands(sigDsn, ondDsn, ond);
    BandsNonEmptyIff(sigDsn, ondDsn, ond);
    var k := BandOf(b, p);
    forall l | 0 <= l < 6 && b[l].start <= p < b[l].stop ensures l == k {
      if l < k { BoundsIncrease(b, l, k); }
      if k < l { BoundsIncrease(b, k, l); }
    }
  }

  /** In contiguous non-empty bands an earlier band stops no later than a later one starts. */
  lemma {:induction false} BoundsIncrease(bands: seq<Band>, k: nat, l: nat)
    requires k < l < |bands|
    requires forall j :: 0 <= j < |bands| - 1 ==> bands[j].stop == bands[j + 1].start
    requires forall j :: 0 <= j < |bands| ==> bands[j].start < bands[j].stop
    ensures bands[k].stop <= bands[l].start
    decreases l - k
  {
    if k + 1 < l {
      BoundsIncrease(bands, k + 1, l);
    }
  }
}

=== FILE: fc_params.dfy ===
/** Reading the fragility-curve parameter table (fc_plline.py:43-140). A row is
    `filename, min_level, max_level, step_size`, and the file name itself carries the
    levee code and the chainage range, `<dtcode>_<start>-<end>.stix`. As in the berm
    table, a row that fails to convert is logged and not skipped; here the error message
    is a plain string, so the loop body only stops at the step-size test. */
module FcParams {
  import opened Options
  import opened Text
  import opened ParamFile
  import opened FcLevels
  import opened Seqs

  /** A fully converted parameter row, file name decoded. */
  datatype FcRow = FcRow(filename: string, minLevel: real, maxLevel: real, stepSize: real,
                         dtcode: string, startChainage: real, endChainage: real)

  /** The names the loop body binds while reading a row; `None` means not bound yet. */
  datatype FcEnv = FcEnv(
    filename: Option<string>,
    minLevel: Option<Value>, maxLevel: Option<Value>, stepSize: Option<Value>,
    dtcode: Option<string>, startChainage: Option<real>, endChainage: Option<real>)

  /** The bindings before the first row. */
  const FcUnbound: FcEnv := FcEnv(None, None, None, None, None, None, None)

  /** The bindings after the try block, and whether the block ran to its end. */
  datatype FcAssigned = FcAssigned(env: FcEnv, complete: bool)

  function FcEnvOf(r: FcRow): FcEnv {
    FcEnv(Some(r.filename), Some(Number(r.minLevel)), Some(Number(r.maxLevel)), Some(Number(r.stepSize)),
          Some(r.dtcode), Some(r.startChainage), Some(r.endChainage))
  }

  /** The try block of fc_plline.py:50-64: the unpacking binds all four names or none,
      the three `float()` calls rebind the levels, and the name decoding binds the levee
      code and the chainages. A row with a wrong number of fields changes nothing; one
      that unpacks always rebinds the file name and the three levels. */
  function AssignFcRow(env: FcEnv, line: string, parseFloat: string -> Option<real>): (a: FcAssigned)
    ensures Count(line, ',') != 3 ==> a == FcAssigned(env, false)
    ensures Count(line, ',') == 3 ==> a.env.filename.Some? && a.env.minLevel.Some? && a.env.maxLevel.Some?
                                      && a.env.stepSize.Some?
    ensures !a.complete ==> a.env.endChainage == env.endChainage
  {
    match Fields(line, 4)
    case None => FcAssigned(env, false)
    case Some(f) => AssignFcFields(env, f, parseFloat)
  }

  /** The file name decoded as fc_plline.py:58-60 decodes it: exactly two parts on `_`,
      the levee code and `s`; the start chainage is the text of `s` before its first `-`,
      the end chainage the text after it with every `.stix` removed. */
  function DecodeName(filename: string, parseFloat: string -> Option<real>): (r: Option<(string, real, real)>)
    ensures r.Some? ==> |Split(filename, '_')| == 2 && r.value.0 == Split(filename, '_')[0]
    ensures r.Some? ==> '_' !in r.value.0 && Split(filename, '_')[0] + "_" + Split(filename, '_')[1] == filename
  {
    var parts := Split(filename, '_');
    if |parts| != 2 then None
    else
      var sp := Split(parts[1], '-');
      if |sp| < 2 || parseFloat(sp[0]).None? || parseFloat(RemoveAll(sp[1], StixSuffix)).None? then None
      else
        assert Join(parts, '_') == parts[0] + "_" + parts[1];
        Some((parts[0], parseFloat(sp[0]).value, parseFloat(RemoveAll(sp[1], StixSuffix)).value))
  }

  /** The statements after a successful unpacking of the fields `f`: three `float()`
      rebindings, then the decoding of the file name. */
  function AssignFcFields(env: FcEnv, f: seq<string>, parseFloat: string -> Option<real>): (a: FcAssigned)
    requires |f| == 4
    ensures a.env.filename == Some(f[0])
    ensures a.env.minLevel.Some? && a.env.maxLevel.Some? && a.env.stepSize.Some?
    ensures a.env.stepSize.value.Number? <==> forall k :: 1 <= k < 4 ==> parseFloat(f[k]).Some?
    ensures a.env.stepSize.value.Number? ==> a.env.stepSize == Some(Number(parseFloat(f[3]).value))
    ensures |Split(f[0], '_')| != 2 ==> a.env.dtcode == env.dtcode && !a.complete
    ensures a.complete <==> (forall k :: 1 <= k < 4 ==> parseFloat(f[k]).Some?) && DecodeName(f[0], parseFloat).Some?
    ensures !a.complete ==> a.env.endChainage == env.endChainage
    ensures a.complete ==>
              var d := DecodeName(f[0], parseFloat).value;
              a.env == FcEnvOf(FcRow(f[0], parseFloat(f[1]).value, parseFloat(f[2]).value,
                                     parseFloat(f[3]).value, d.0, d.1, d.2))
  {
    var e0 := env.(filename := Some(f[0]), minLevel := Some(Raw(f[1])), maxLevel := Some(Raw(f[2])),
                   stepSize := Some(Raw(f[3])));
    match parseFloat(f[1])
    case None => FcAssigned(e0, false)
    case Some(lo) =>
      var e1 := e0.(minLevel := Some(Number(lo)));
      match parseFloat(f[2])
      case None => FcAssigned(e1, false)
      case Some(hi) =>
        var e2 := e1.(maxLevel := Some(Number(hi)));
        match parseFloat(f[3])
        case None => FcAssigned(e2, false)
        case Some(st) =>
          var e3 := e2.(stepSize := Some(Number(st)));
          AssignChainages(e3, f[0], parseFloat)
  }

  /** The statements of fc_plline.py:58-60, one binding at a time: `dtcode` is bound as
      soon as the split succeeds and the start chainage before `s.split("-")[1]` is
      indexed, so a failure part-way leaves a mix of new and old bindings. */
  function AssignChainages(env: FcEnv, filename: string, parseFloat: string -> Option<real>): (a: FcAssigned)
    ensures a.env.(dtcode := env.dtcode, startChainage := env.startChainage, endChainage := env.endChainage) == env
    ensures |Split(filename, '_')| != 2 ==> a.env == env && !a.complete
    ensures |Split(filename, '_')| == 2 ==> a.env.dtcode == Some(Split(filename, '_')[0])
    ensures a.complete <==> DecodeName(filename, parseFloat).Some?
    ensures !a.complete ==> a.env.endChainage == env.endChainage
    ensures a.complete ==>
              var d := DecodeName(filename, parseFloat).value;
              a.env.dtcode == Some(d.0) && a.env.startChainage == Some(d.1) && a.env.endChainage == Some(d.2)
  {
    var parts := Split(filename, '_');
    if |parts| != 2 then FcAssigned(env, false)
    else
      var e4 := env.(dtcode := Some(parts[0]));
      var sp := Split(parts[1], '-');
      match parseFloat(sp[0])
      case None => FcAssigned(e4, false)
      case Some(start) =>
        var e5 := e4.(startChainage := Some(start));
        if |sp| < 2 then FcAssigned(e5, false)
        else
          match parseFloat(RemoveAll(sp[1], StixSuffix))
          case None => FcAssigned(e5, false)
          case Some(end) => FcAssigned(e5.(endChainage := Some(end)), true)
  }

  /** A row read on its own: `Some` exactly when the try block completes. */
  function ParseFcRow(line: string, parseFloat: string -> Option<real>): (r: Option<FcRow>)
    ensures Count(line, ',') != 3 ==> r.None?
    ensures r.Some? ==> IsStripped(r.value.filename) && ',' !in r.value.filename
    ensures r.Some? ==> DecodeName(r.value.filename, parseFloat)
                          == Some((r.value.dtcode, r.value.startChainage, r.value.endChainage))
  {
    var a := AssignFcRow(FcUnbound, line, parseFloat);
    if a.complete then
      var e := a.env;
      Some(FcRow(e.filename.value, e.minLevel.value.number, e.maxLevel.value.number,
                 e.stepSize.value.number, e.dtcode.value, e.startChainage.value, e.endChainage.value))
    else None
  }

  /** A completed block leaves nothing of the previous row behind. */
  lemma FcCompleteIsFresh(env: FcEnv, line: string, parseFloat: string -> Option<real>)
    ensures AssignFcRow(env, line, parseFloat).complete <==> ParseFcRow(line, parseFloat).Some?
    ensures AssignFcRow(env, line, parseFloat).complete ==>
              AssignFcRow(env, line, parseFloat).env == FcEnvOf(ParseFcRow(line, parseFloat).value)
  {
  }

  /** A file name in the documented form `<dtcode>_<start>-<end>.stix`, with start and
      end texts free of `_` and `-`, decodes to the levee code and the two chainages. */
  lemma NameRoundTrip(dtcode: string, startText: string, endText: string,
                      parseFloat: string -> Option<real>)
    requires '_' !in dtcode && '_' !in startText && '_' !in endText
    requires '-' !in startText && '-' !in endText && !Contains(endText, StixSuffix)
    requires parseFloat(startText).Some? && parseFloat(endText).Some?
    ensures DecodeName(dtcode + "_" + startText + "-" + endText + StixSuffix, parseFloat)
            == Some((dtcode, parseFloat(startText).value, parseFloat(endText).value))
  {
    var s := startText + "-" + endText + StixSuffix;
    var name := dtcode + "_" + startText + "-" + endText + StixSuffix;
    assert name == dtcode + ['_'] + s;
    assert '_' !in s;
    SplitAppend(dtcode, s, '_');
    SplitNoSeparator(dtcode, '_');
    SplitNoSeparator(s, '_');
    var tail := endText + StixSuffix;
    assert s == startText + ['-'] + tail;
    assert '-' !in tail;
    SplitAppend(startText, tail, '-');
    SplitNoSeparator(startText, '-');
    SplitNoSeparator(tail, '-');
    RemoveStixSuffix(endText);
  }

  /** What the loop body does with a row after its try block. */
  datatype FcAction =
    | FcCrash   // an uncaught exception ends the script
    | Skip      // the record is skipped without calculations
    | Calculate(filename: string, subdir: string, levels: seq<real>, dtcode: string,
                startChainage: real, endChainage: real)
      // the prepared models are handed to the engine and charted under these bindings

  /** What follows the try block, given the bindings it left (fc_plline.py:70-257). The step
      size is compared with zero outside any try block, so an unbound or text step size
      ends the script; the level loop is inside one, so a failing preparation only
      shortens the list of models. `prepare(filename, level)` is whether copying, parsing
      and regenerating the water net for that level succeeds. Once a model is prepared,
      the chart step looks the levee code up in the settings tables (fc_plline.py:180,
      191-194) and names both chainages (fc_plline.py:254) whatever the engine returns:
      an unbound name or a code the tables lack ends the script there. `settings` is the
      set of levee codes all of those tables hold. */
  function FcActionOf(e: FcEnv, prepare: (string, real) -> bool, settings: set<string>): (act: FcAction)
    ensures act.Calculate? ==> |act.levels| > 0 && Some(act.filename) == e.filename
    ensures act.Calculate? ==> Some(act.dtcode) == e.dtcode && act.dtcode in settings
                               && Some(act.startChainage) == e.startChainage
                               && Some(act.endChainage) == e.endChainage
  {
    match e.stepSize
    case None => FcCrash
    case Some(Raw(_)) => FcCrash
    case Some(Number(st)) =>
      if st <= 0.0 then Skip
      else if e.filename.None? then FcCrash
      else
        var filename := e.filename.value;
        // Bindings left by `AssignFcRow` never reach this branch: the step size converts
        // after both levels (LevelsBeforeStep).
        if e.minLevel.None? || e.minLevel.value.Raw? || e.maxLevel.None? || e.maxLevel.value.Raw? then Skip
        else
          var grid := LevelGrid(e.minLevel.value.number, e.maxLevel.value.number, st);
          var levels := PreparedPrefix(grid, l => prepare(filename, l));
          if |levels| == 0 then Skip
          else if e.dtcode.None? || e.dtcode.value !in settings || e.startChainage.None? || e.endChainage.None?
          then FcCrash
          else Calculate(filename, FirstPiece(filename, '_'), levels, e.dtcode.value,
                         e.startChainage.value, e.endChainage.value)
  }

  /** A calculation needs a bound levee code and both chainages: without one the script
      never charts a curve. */
  lemma UnboundNameNeverCalculates(e: FcEnv, prepare: (string, real) -> bool, settings: set<string>)
    requires e.dtcode.None? || e.startChainage.None? || e.endChainage.None?
    ensures !FcActionOf(e, prepare, settings).Calculate?
  {
  }

  /** The level bindings convert before the step size does. */
  predicate LevelsBeforeStep(e: FcEnv) {
    e.stepSize.Some? && e.stepSize.value.Number? ==>
      e.minLevel.Some? && e.minLevel.value.Number? && e.maxLevel.Some? && e.maxLevel.value.Number?
  }

  /** The try block keeps the levels converted whenever the step size is: the text-level
      branch of `FcActionOf` is unreachable from the bindings before the first row. */
  lemma LevelsBeforeStepKept(env: FcEnv, line: string, parseFloat: string -> Option<real>)
    requires LevelsBeforeStep(env)
    ensures LevelsBeforeStep(FcUnbound)
    ensures LevelsBeforeStep(AssignFcRow(env, line, parseFloat).env)
  {
    if Count(line, ',') == 3 {
      var f := Fields(line, 4).value;
      FieldsAssigned(env, line, parseFloat);
      assert AssignFcRow(env, line, parseFloat) == AssignFcFields(env, f, parseFloat);
    }
  }

  /** One pass of the loop body up to the chart. */
  function FcRowStep(env: FcEnv, line: string, parseFloat: string -> Option<real>,
                     prepare: (string, real) -> bool, settings: set<string>): (r: (FcEnv, FcAction))
    ensures ParseFcRow(line, parseFloat).Some? ==> r.0 == FcEnvOf(ParseFcRow(line, parseFloat).value)
    ensures Count(line, ',') != 3 ==> r.0 == env
  {
    FcCompleteIsFresh(env, line, parseFloat);
    var e := AssignFcRow(env, line, parseFloat).env;
    (e, FcActionOf(e, prepare, settings))
  }

  /** The loop over the data rows, up to and including the row that crashes: one action
      per row, the first being the first row's. */
  function FcRun(env: FcEnv, rows: seq<string>, parseFloat: string -> Option<real>,
                 prepare: (string, real) -> bool, settings: set<string>): (r: seq<FcAction>)
    ensures |r| <= |rows|
    ensures forall i :: 0 <= i < |r| - 1 ==> r[i] != FcCrash
    ensures |r| < |rows| ==> |r| > 0 && r[|r| - 1] == FcCrash
    ensures |rows| > 0 ==> |r| > 0 && r[0] == FcRowStep(env, rows[0], parseFloat, prepare, settings).1
  {
    RunUntil(env, rows, (e, line) => FcRowStep(e, line, parseFloat, prepare, settings), FcCrash)
  }

  /** A row that reads completely and has a positive step runs its own grid, cut at the
      first level that cannot be prepared, with its own levee code and chainages; a code
      the settings tables lack ends the script once a level is prepared. */
  lemma GoodRowCalculatesItsGrid(env: FcEnv, line: string, parseFloat: string -> Option<real>,
                                 prepare: (string, real) -> bool, settings: set<string>)
    requires ParseFcRow(line, parseFloat).Some?
    requires ParseFcRow(line, parseFloat).value.stepSize > 0.0
    ensures var r := ParseFcRow(line, parseFloat).value;
            var levels := PreparedPrefix(LevelGrid(r.minLevel, r.maxLevel, r.stepSize), l => prepare(r.filename, l));
            FcRowStep(env, line, parseFloat, prepare, settings).1
              == if |levels| == 0 then Skip
                 else if r.dtcode !in settings then FcCrash
                 else Calculate(r.filename, FirstPiece(r.filename, '_'), levels,
                                r.dtcode, r.startChainage, r.endChainage)
  {
    var r := ParseFcRow(line, parseFloat).value;
    assert FcRowStep(env, line, parseFloat, prepare, settings).1 == FcActionOf(FcEnvOf(r), prepare, settings);
    RowAction(r, prepare, settings);
  }

  /** The bindings of a converted row with a positive step run that row's grid. */
  lemma RowAction(r: FcRow, prepare: (string, real) -> bool, settings: set<string>)
    requires r.stepSize > 0.0
    ensures var levels := PreparedPrefix(LevelGrid(r.minLevel, r.maxLevel, r.stepSize), l => prepare(r.filename, l));
            FcActionOf(FcEnvOf(r), prepare, settings)
              == if |levels| == 0 then Skip
                 else if r.dtcode !in settings then FcCrash
                 else Calculate(r.filename, FirstPiece(r.filename, '_'), levels,
                                r.dtcode, r.startChainage, r.endChainage)
  {
  }

  /** A row whose step size reads as zero or negative is skipped, whatever else it holds
      and whatever came before. */
  lemma NonPositiveStepSkipped(env: FcEnv, line: string, parseFloat: string -> Option<real>,
                               prepare: (string, real) -> bool, settings: set<string>)
    requires Count(line, ',') == 3
    requires var f := Fields(line, 4).value;
             (forall k :: 1 <= k < 4 ==> parseFloat(f[k]).Some?) && parseFloat(f[3]).value <= 0.0
    ensures FcRowStep(env, line, parseFloat, prepare, settings).1 == Skip
  {
    var f := Fields(line, 4).value;
    var e := AssignFcRow(env, line, parseFloat).env;
    assert e.stepSize == Some(Number(parseFloat(f[3]).value)) by {
      FieldsAssigned(env, line, parseFloat);
    }
    NonPositiveStep(e, prepare, settings);
    assert FcRowStep(env, line, parseFloat, prepare, settings) == (e, FcActionOf(e, prepare, settings));
  }

  lemma NonPositiveStep(e: FcEnv, prepare: (string, real) -> bool, settings: set<string>)
    requires e.stepSize.Some? && e.stepSize.value.Number? && e.stepSize.value.number <= 0.0
    ensures FcActionOf(e, prepare, settings) == Skip
  {
  }

  /** With exactly four fields the try block goes on to the conversions. */
  lemma FieldsAssigned(env: FcEnv, line: string, parseFloat: string -> Option<real>)
    requires Count(line, ',') == 3
    ensures AssignFcRow(env, line, parseFloat) == AssignFcFields(env, Fields(line, 4).value, parseFloat)
  {
  }

  /** A first data row without exactly four fields ends the script: `step_size` is still
      unbound when it is compared with zero. */
  lemma FcMalformedFirstRowCrashes(line: string, parseFloat: string -> Option<real>,
                                   prepare: (string, real) -> bool, settings: set<string>)
    requires Count(line, ',') != 3
    ensures FcRowStep(FcUnbound, line, parseFloat, prepare, settings).1 == FcCrash
  {
  }

  /** A first data row that does not read completely never charts a curve: its end
      chainage is still unbound, so the script ends at the step-size test, skips the row,
      or ends in the chart step. */
  lemma FailedFirstRowNeverCalculates(line: string, parseFloat: string -> Option<real>,
                                      prepare: (string, real) -> bool, settings: set<string>)
    requires ParseFcRow(line, parseFloat).None?
    ensures !FcRowStep(FcUnbound, line, parseFloat, prepare, settings).1.Calculate?
  {
    var a := AssignFcRow(FcUnbound, line, parseFloat);
    assert !a.complete by {
      FcCompleteIsFresh(FcUnbound, line, parseFloat);
    }
    if Count(line, ',') == 3 {
      FieldsAssigned(FcUnbound, line, parseFloat);
    }
    assert a.env.endChainage.None?;
    UnboundNameNeverCalculates(a.env, prepare, settings);
  }

  /** A row whose step size does not convert ends the script: text is compared with zero. */
  lemma TextStepCrashes(env: FcEnv, line: string, parseFloat: string -> Option<real>,
                        prepare: (string, real) -> bool, settings: set<string>)
    requires Count(line, ',') == 3
    requires parseFloat(Fields(line, 4).value[3]).None?
    ensures FcRowStep(env, line, parseFloat, prepare, settings).1 == FcCrash
  {
    var e := AssignFcRow(env, line, parseFloat).env;
    assert e.stepSize.Some? && e.stepSize.value.Raw? by {
      FieldsAssigned(env, line, parseFloat);
    }
    assert FcRowStep(env, line, parseFloat, prepare, settings) == (e, FcActionOf(e, prepare, settings));
  }

  /** After a row that read completely, a row whose numbers convert but whose file name
      does not split into exactly two parts on `_` is calculated on its own levels under
      the previous row's levee code and chainages. */
  lemma StaleLeveeCode(prev: FcRow, line: string, parseFloat: string -> Option<real>,
                       prepare: (string, real) -> bool, settings: set<string>)
    requires Count(line, ',') == 3
    requires var f := Fields(line, 4).value;
             (forall k :: 1 <= k < 4 ==> parseFloat(f[k]).Some?) && |Split(f[0], '_')| != 2
    ensures var act := FcRowStep(FcEnvOf(prev), line, parseFloat, prepare, settings).1;
            act.Calculate? ==>
              act.dtcode == prev.dtcode && act.startChainage == prev.startChainage
              && act.endChainage == prev.endChainage
              && act.filename == Fields(line, 4).value[0]
  {
    var f := Fields(line, 4).value;
    var e := AssignFcRow(FcEnvOf(prev), line, parseFloat).env;
    assert e.dtcode == Some(prev.dtcode) && e.startChainage == Some(prev.startChainage)
           && e.endChainage == Some(prev.endChainage) && e.filename == Some(f[0]) by {
      FieldsAssigned(FcEnvOf(prev), line, parseFloat);
    }
    assert FcRowStep(FcEnvOf(prev), line, parseFloat, prepare, settings) == (e, FcActionOf(e, prepare, settings));
  }

  /** A name that splits in two and whose start chainage converts, but whose end does not
      (as in `A_5`), rebinds the start and leaves the end chainage from before. */
  lemma NewStartStaleEnd(env: FcEnv, filename: string, parseFloat: string -> Option<real>)
    requires |Split(filename, '_')| == 2
    requires parseFloat(Split(Split(filename, '_')[1], '-')[0]).Some?
    requires DecodeName(filename, parseFloat).None?
    ensures var a := AssignChainages(env, filename, parseFloat);
            && a.env.dtcode == Some(Split(filename, '_')[0])
            && a.env.startChainage == parseFloat(Split(Split(filename, '_')[1], '-')[0])
            && a.env.endChainage == env.endChainage
  {
  }
}

=== FILE: numerals.dfy ===
/** Decimal renderings of integers (Python's `str` on `int`), Python's `round` on a
    float with no digit count (round half to even), and the ceiling `numpy.arange` uses. */
module Numerals {
  import opened Options

  predicate IsDigit(c: char) {
    '0' <= c <= '9'
  }

  predicate AllDigits(s: string) {
    forall i :: 0 <= i < |s| ==> IsDigit(s[i])
  }

  function DigitChar(d: nat): (c: char)
    requires d < 10
    ensures IsDigit(c)
  {
    ('0' as int + d) as char
  }

  /** `str(n)` for `n >= 0`: decimal digits without leading zeros. */
  function NatToString(n: nat): (r: string)
    ensures 1 <= |r|
    ensures AllDigits(r)
    ensures |r| == 1 <==> n < 10
    ensures |r| > 1 ==> r[0] != '0'
    decreases n
  {
    if n < 10 then [DigitChar(n)] else NatToString(n / 10) + [DigitChar(n % 10)]
  }

  /** The number a string of decimal digits denotes. */
  function DigitsValue(s: string): nat
    requires AllDigits(s)
  {
    if |s| == 0 then 0 else 10 * DigitsValue(s[..|s| - 1]) + (s[|s| - 1] as int - '0' as int)
  }

  /** Reading the digits back gives the number. */
  lemma {:induction false} NatToStringRoundTrip(n: nat)
    ensures DigitsValue(NatToString(n)) == n
    decreases n
  {
    if n >= 10 {
      NatToStringRoundTrip(n / 10);
      var r := NatToString(n);
      assert r[..|r| - 1] == NatToString(n / 10);
    }
  }

  /** Distinct numbers have distinct renderings. */
  lemma NatToStringInjective(m: nat, n: nat)
    requires NatToString(m) == NatToString(n)
    ensures m == n
  {
    NatToStringRoundTrip(m);
    NatToStringRoundTrip(n);
  }

  /** `str(i)` for any integer: a minus sign exactly for a negative `i`, followed by the
      decimal digits of its magnitude, without leading zeros. */
  function IntToString(i: int): (r: string)
    ensures 1 <= |r|
    ensures r[0] == '-' <==> i < 0
    ensures var digits := if i < 0 then r[1..] else r;
            && |digits| >= 1 && AllDigits(digits)
            && DigitsValue(digits) == (if i < 0 then -i else i)
            && (|digits| > 1 ==> digits[0] != '0')
  {
    var m := if i < 0 then -i else i;
    NatToStringRoundTrip(m);
    if i < 0 then
      var r := "-" + NatToString(m);
      assert r[1..] == NatToString(m);
      r
    else NatToString(m)
  }

  /** Reads back what `IntToString` writes: an optional minus sign, then digits. */
  function ParseInt(s: string): Option<int>
  {
    if |s| > 1 && s[0] == '-' && AllDigits(s[1..]) then Some(-(DigitsValue(s[1..]) as int))
    else if |s| > 0 && AllDigits(s) then Some(DigitsValue(s))
    else None
  }

  lemma IntToStringRoundTrip(i: int)
    ensures ParseInt(IntToString(i)) == Some(i)
  {
    if i < 0 {
      NatToStringRoundTrip(-i);
      assert IntToString(i)[1..] == NatToString(-i);
    } else {
      NatToStringRoundTrip(i);
    }
  }

  lemma IntToStringInjective(i: int, j: int)
    requires IntToString(i) == IntToString(j)
    ensures i == j
  {
    IntToStringRoundTrip(i);
    IntToStringRoundTrip(j);
  }

  /** Python's `round(x)` for a float `x`: the nearest integer, ties to the even one. */
  function RoundHalfEven(x: real): (n: int)
    ensures x - 1.0 / 2.0 <= n as real <= x + 1.0 / 2.0
    ensures (n as real - x == 1.0 / 2.0 || x - n as real == 1.0 / 2.0) ==> n % 2 == 0
  {
    var f := x.Floor;
    var d := x - f as real;
    if d < 1.0 / 2.0 then f
    else if d > 1.0 / 2.0 then f + 1
    else if f % 2 == 0 then f
    else f + 1
  }

  /** Rounding an integer leaves it alone. */
  lemma RoundInteger(k: int)
    ensures RoundHalfEven(k as real) == k
  {
  }

  /** Rounding never reverses the order of two values. */
  lemma RoundMonotone(x: real, y: real)
    requires x <= y
    ensures RoundHalfEven(x) <= RoundHalfEven(y)
  {
  }

  /** The least integer not below `x`. */
  function Ceil(x: real): (n: int)
    ensures x <= n as real < x + 1.0
  {
    -((-x).Floor)
  }
}

=== FILE: options.dfy ===
/** Optional values: the model's stand-in for a Python call that may raise. */
module Options {

  /** `None` where the Python code raises (and the exception is caught), `Some` otherwise. */
  datatype Option<+T> = None | Some(value: T)
}

=== FILE: param_file.dfy ===
/** The parameter tables both drivers read (berm.py:27-29 and fc_plline.py:43-45 do the
    same thing): lines are stripped, blank ones dropped, and the first remaining line,
    the header, is discarded. */
module ParamFile {
  import opened Options
  import opened Text

  /** What a Python name bound from a table field holds: the stripped text of the field
      or, once `float()` succeeded on it, the number. */
  datatype Value = Raw(text: string) | Number(number: real)

  /** `[p.strip() for p in line.split(",")]` when it has exactly `n` entries, the
      count a tuple unpacking of `n` names demands; `None` when the unpacking raises. */
  function Fields(line: string, n: nat): (r: Option<seq<string>>)
    ensures r.Some? <==> Count(line, ',') + 1 == n
    ensures r.Some? ==> |r.value| == n
    ensures r.Some? ==> forall k :: 0 <= k < n ==> IsStripped(r.value[k]) && ',' !in r.value[k]
  {
    var parts := Split(line, ',');
    if |parts| != n then None
    else Some(seq(n, k requires 0 <= k < n => Strip(parts[k])))
  }

  /** Fields that are already stripped and free of commas come back from their join. */
  lemma FieldsOfJoin(fs: seq<string>)
    requires |fs| >= 1
    requires forall k :: 0 <= k < |fs| ==> IsStripped(fs[k]) && ',' !in fs[k]
    ensures Fields(Join(fs, ','), |fs|) == Some(fs)
  {
    SplitJoin(fs, ',');
    StripAllStripped(fs);
  }

  lemma StripAllStripped(fs: seq<string>)
    requires forall k :: 0 <= k < |fs| ==> IsStripped(fs[k])
    ensures seq(|fs|, k requires 0 <= k < |fs| => Strip(fs[k])) == fs
  {
    forall k | 0 <= k < |fs| ensures Strip(fs[k]) == fs[k] {
      StripStripped(fs[k]);
    }
  }

  /** A line that `strip()` empties. */
  predicate IsBlank(line: string) {
    Strip(line) == []
  }

  /** `[l.strip() for l in lines if l.strip() != ""]`. */
  function KeptLines(lines: seq<string>): (r: seq<string>)
    ensures |r| <= |lines|
  {
    if |lines| == 0 then []
    else
      var s := Strip(lines[0]);
      var rest := KeptLines(lines[1..]);
      if s == [] then rest else [s] + rest
  }

  /** `x` is the stripped text of some non-blank line of `lines`. */
  predicate StrippedLineOf(x: string, lines: seq<string>) {
    exists l :: l in lines && !IsBlank(l) && x == Strip(l)
  }

  /** Every kept line is non-empty and stripped, and every non-blank line is kept in its
      stripped form. */
  lemma {:induction false} KeptLinesStripped(lines: seq<string>)
    ensures forall x :: x in KeptLines(lines) ==> x != [] && IsStripped(x)
    ensures forall l :: l in lines && !IsBlank(l) ==> Strip(l) in KeptLines(lines)
  {
    if |lines| > 0 {
      KeptLinesStripped(lines[1..]);
      forall l | l in lines && !IsBlank(l) ensures Strip(l) in KeptLines(lines) {
        if l != lines[0] {
          assert l in lines[1..];
        }
      }
    }
  }

  /** Every kept line is the stripped text of a non-blank line of the file. */
  lemma {:induction false} KeptLinesFromLines(lines: seq<string>)
    ensures forall x :: x in KeptLines(lines) ==> StrippedLineOf(x, lines)
  {
    if |lines| > 0 {
      KeptLinesFromLines(lines[1..]);
      forall x | x in KeptLines(lines) ensures StrippedLineOf(x, lines) {
        if x in KeptLines(lines[1..]) {
          var l :| l in lines[1..] && !IsBlank(l) && x == Strip(l);
          assert l in lines;
        } else {
          assert lines[0] in lines;
        }
      }
    }
  }

  /** Stripping and filtering treats the lines one by one, in order. */
  lemma {:induction false} KeptLinesAppend(a: seq<string>, b: seq<string>)
    ensures KeptLines(a + b) == KeptLines(a) + KeptLines(b)
  {
    if |a| > 0 {
      assert (a + b)[0] == a[0] && (a + b)[1..] == a[1..] + b;
      KeptLinesAppend(a[1..], b);
      var (x, y) := (KeptLines(a[1..]), KeptLines(b));
      if !IsBlank(a[0]) {
        assert [Strip(a[0])] + (x + y) == ([Strip(a[0])] + x) + y;
      }
    } else {
      assert a + b == b;
    }
  }

  /** Blank lines contribute nothing. */
  lemma {:induction false} KeptLinesBlank(blanks: seq<string>)
    requires forall i :: 0 <= i < |blanks| ==> IsBlank(blanks[i])
    ensures KeptLines(blanks) == []
  {
    if |blanks| > 0 {
      KeptLinesBlank(blanks[1..]);
    }
  }

  /** The data rows of a parameter file: kept lines minus the header. */
  function DataLines(lines: seq<string>): (r: seq<string>)
    ensures |r| < |lines| || |lines| == 0
    ensures forall x :: x in r ==> x != [] && IsStripped(x) && StrippedLineOf(x, lines)
  {
    var kept := KeptLines(lines);
    KeptLinesStripped(lines);
    KeptLinesFromLines(lines);
    if |kept| == 0 then []
    else
      assert forall x :: x in kept[1..] ==> x in kept;
      kept[1..]
  }

  /** The header is the first non-blank line, whatever blank lines precede it; every
      later non-blank line is a data row, stripped, in file order. */
  lemma HeaderDropped(blanks: seq<string>, header: string, rest: seq<string>)
    requires forall i :: 0 <= i < |blanks| ==> IsBlank(blanks[i])
    requires !IsBlank(header)
    ensures DataLines(blanks + [header] + rest) == KeptLines(rest)
  {
    KeptLinesAppend(blanks + [header], rest);
    KeptLinesAppend(blanks, [header]);
    KeptLinesBlank(blanks);
    assert KeptLines([header]) == [Strip(header)] by {
      assert [header][1..] == [];
    }
  }
}

=== FILE: reflines.dfy ===
/** Chainage geometry along a reference line (get_reflines.py:8-57). A reference line is
    a polyline whose vertices carry a chainage: 0 at the first vertex, and at every next
    one the previous chainage plus the segment length, rounded to a whole metre. Points
    are looked up by chainage with linear interpolation on the first segment that spans
    it. Distances come from an abstract `hypot`. */
module RefLines {
  import opened Options
  import opened Numerals
  import opened Seqs

  /** A vertex `[x, y, l]` of the polyline, `l` its chainage. */
  datatype Vertex = Vertex(x: real, y: real, l: int)

  /** The Euclidean distance function `math.hypot`, for the offsets `dx`, `dy`. */
  type Hypot = (real, real) -> real

  ghost predicate NonNegative(hypot: Hypot) {
    forall dx, dy :: hypot(dx, dy) >= 0.0
  }

  /** The chainage loop of get_reflines.py:24-33 over the coordinates read from the shape. */
  function FromShape(coords: seq<(real, real)>, hypot: Hypot): (r: seq<Vertex>)
    ensures |r| == |coords|
    ensures forall i :: 0 <= i < |r| ==> r[i].x == coords[i].0 && r[i].y == coords[i].1
    ensures |r| > 0 ==> r[0].l == 0
    decreases |coords|
  {
    if |coords| == 0 then []
    else if |coords| == 1 then [Vertex(coords[0].0, coords[0].1, 0)]
    else
      var init := FromShape(coords[..|coords| - 1], hypot);
      var prev := init[|init| - 1];
      var c := coords[|coords| - 1];
      init + [Vertex(c.0, c.1, RoundHalfEven(prev.l as real + hypot(c.0 - prev.x, c.1 - prev.y)))]
  }

  /** Each vertex's chainage is the previous one plus the segment length, rounded. */
  lemma {:induction false} ChainageStep(coords: seq<(real, real)>, hypot: Hypot, i: nat)
    requires 1 <= i < |coords|
    ensures var r := FromShape(coords, hypot);
            r[i].l == RoundHalfEven(r[i - 1].l as real + hypot(coords[i].0 - coords[i - 1].0, coords[i].1 - coords[i - 1].1))
    decreases |coords|
  {
    var r := FromShape(coords, hypot);
    var init := FromShape(coords[..|coords| - 1], hypot);
    assert r == init + [r[|r| - 1]];
    if i < |coords| - 1 {
      ChainageStep(coords[..|coords| - 1], hypot, i);
      assert r[i] == init[i] && r[i - 1] == init[i - 1];
    }
  }

  /** With a non-negative distance the chainages never decrease along the line. */
  lemma ChainagesNonDecreasing(coords: seq<(real, real)>, hypot: Hypot, i: nat)
    requires NonNegative(hypot)
    requires 1 <= i < |coords|
    ensures FromShape(coords, hypot)[i - 1].l <= FromShape(coords, hypot)[i].l
  {
    var r := FromShape(coords, hypot);
    ChainageStep(coords, hypot, i);
    var h := hypot(coords[i].0 - coords[i - 1].0, coords[i].1 - coords[i - 1].1);
    RoundMonotone(r[i - 1].l as real, r[i - 1].l as real + h);
    RoundInteger(r[i - 1].l);
  }

  /** The exact length of the polyline up to vertex `n`. */
  function PathLength(coords: seq<(real, real)>, hypot: Hypot, n: nat): real
    requires n < |coords|
  {
    if n == 0 then 0.0
    else PathLength(coords, hypot, n - 1) + hypot(coords[n].0 - coords[n - 1].0, coords[n].1 - coords[n - 1].1)
  }

  /** Rounding at every vertex drifts from the exact path length by at most half a metre
      per segment. */
  lemma {:induction false} ChainageDrift(coords: seq<(real, real)>, hypot: Hypot, n: nat)
    requires n < |coords|
    ensures var d := FromShape(coords, hypot)[n].l as real - PathLength(coords, hypot, n);
            -(n as real) / 2.0 <= d <= n as real / 2.0
  {
    if n > 0 {
      ChainageDrift(coords, hypot, n - 1);
      ChainageStep(coords, hypot, n);
    }
  }

  /** The length of the line, `points[-1][-1]`; `None` where Python raises `IndexError`. */
  function Length(points: seq<Vertex>): (r: Option<int>)
    ensures r.None? <==> |points| == 0
    ensures r.Some? ==> r.value == points[|points| - 1].l
  {
    if |points| == 0 then None else Some(points[|points| - 1].l)
  }

  /** The chainages of a line read from a shape never decrease from vertex `i` to vertex `j`. */
  lemma {:induction false} ChainagesMonotone(coords: seq<(real, real)>, hypot: Hypot, i: nat, j: nat)
    requires NonNegative(hypot)
    requires i <= j < |coords|
    ensures FromShape(coords, hypot)[i].l <= FromShape(coords, hypot)[j].l
    decreases j - i
  {
    if i < j {
      ChainagesMonotone(coords, hypot, i, j - 1);
      ChainagesNonDecreasing(coords, hypot, j);
    }
  }

  /** The length of a line read from a shape with at least one vertex is its greatest
      chainage, and lies within half a metre per segment of the exact path length. */
  lemma ShapeLength(coords: seq<(real, real)>, hypot: Hypot)
    requires NonNegative(hypot) && |coords| > 0
    ensures var points := FromShape(coords, hypot);
            var n := |coords| - 1;
            && Length(points) == Some(points[n].l)
            && (forall i :: 0 <= i < |points| ==> points[i].l <= points[n].l)
            && -(n as real) / 2.0 <= points[n].l as real - PathLength(coords, hypot, n) <= n as real / 2.0
  {
    var points := FromShape(coords, hypot);
    var n := |coords| - 1;
    forall i | 0 <= i < |points| ensures points[i].l <= points[n].l {
      ChainagesMonotone(coords, hypot, i, n);
    }
    ChainageDrift(coords, hypot, n);
  }

  /** Whether segment `i` (from vertex `i - 1` to vertex `i`) spans chainage `l`. */
  predicate Spans(points: seq<Vertex>, i: nat, l: real)
    requires 1 <= i < |points|
  {
    points[i - 1].l as real <= l <= points[i].l as real
  }

  /** The first segment that spans `l`, as the loop of get_reflines.py:42-49 finds it. */
  function SegmentFor(points: seq<Vertex>, l: real, from: nat): (r: Option<nat>)
    requires from >= 1
    ensures r.Some? ==> from <= r.value < |points| && Spans(points, r.value, l)
    ensures r.Some? ==> forall j :: from <= j < r.value ==> !Spans(points, j, l)
    ensures r.None? <==> forall j :: from <= j < |points| ==> !Spans(points, j, l)
    decreases |points| - from
  {
    if from >= |points| then None
    else if Spans(points, from, l) then Some(from)
    else SegmentFor(points, l, from + 1)
  }

  /** What `xy_from_l` yields. */
  datatype XyResult =
    | Point(x: real, y: real)
    | InvalidChainage     // no segment spans the chainage: `ValueError`
    | ZeroLengthSegment   // the spanning segment has equal chainages: `ZeroDivisionError`

  /** Linear interpolation between two vertices at chainage `l` (get_reflines.py:47-48): the
      point lies on the line through `a` and `b`, as far along it, in proportion, as `l`
      lies between their chainages. */
  function Interpolate(a: Vertex, b: Vertex, l: real): (p: XyResult)
    requires a.l != b.l
    ensures p.Point? && Proportional(p, a, b, l)
  {
    var d := (b.l - a.l) as real;
    var t := (l - a.l as real) / d;
    ScaledBack(l - a.l as real, d, b.x - a.x);
    ScaledBack(l - a.l as real, d, b.y - a.y);
    Point(a.x + t * (b.x - a.x), a.y + t * (b.y - a.y))
  }

  /** Point `p` lies on the line through `a` and `b`, displaced from `a` in both coordinates
      in the proportion in which `l` lies between their chainages. */
  predicate Proportional(p: XyResult, a: Vertex, b: Vertex, l: real)
    requires p.Point?
  {
    && (p.x - a.x) * (b.l - a.l) as real == (l - a.l as real) * (b.x - a.x)
    && (p.y - a.y) * (b.l - a.l) as real == (l - a.l as real) * (b.y - a.y)
  }

  /** Scaling by `num / d` and then by `d` scales by `num`. */
  lemma ScaledBack(num: real, d: real, w: real)
    requires d != 0.0
    ensures (num / d * w) * d == num * w
  {
    assert num / d * d == num;
  }

  /** `xy_from_l` (get_reflines.py:41-51). */
  function XyFromL(points: seq<Vertex>, l: real): (r: XyResult)
    ensures r == InvalidChainage <==> forall j :: 1 <= j < |points| ==> !Spans(points, j, l)
    ensures r == ZeroLengthSegment <==>
              SegmentFor(points, l, 1).Some? && var i := SegmentFor(points, l, 1).value;
                                                points[i - 1].l == points[i].l
    ensures r.Point? ==> var i := SegmentFor(points, l, 1).value;
                         Within(r.x, points[i - 1].x, points[i].x) && Within(r.y, points[i - 1].y, points[i].y)
    ensures r.Point? ==> var i := SegmentFor(points, l, 1).value;
                         Proportional(r, points[i - 1], points[i], l)
  {
    match SegmentFor(points, l, 1)
    case None => InvalidChainage
    case Some(i) =>
      if points[i - 1].l == points[i].l then ZeroLengthSegment
      else
        var p := Interpolate(points[i - 1], points[i], l);
        InterpolateWithin(points[i - 1], points[i], l);
        p
  }

  /** `v` lies between `a` and `b`, whichever is larger. */
  predicate Within(v: real, a: real, b: real) {
    (a <= v <= b) || (b <= v <= a)
  }

  /** An interpolated point lies in the bounding box of its segment. */
  lemma InterpolateWithin(a: Vertex, b: Vertex, l: real)
    requires a.l < b.l && a.l as real <= l <= b.l as real
    ensures var p := Interpolate(a, b, l);
            Within(p.x, a.x, b.x) && Within(p.y, a.y, b.y)
  {
    var t := (l - a.l as real) / ((b.l - a.l) as real);
    FractionInUnit(l - a.l as real, (b.l - a.l) as real);
    ScaleWithin(t, a.x, b.x);
    ScaleWithin(t, a.y, b.y);
  }

  lemma FractionInUnit(num: real, den: real)
    requires 0.0 <= num <= den && den > 0.0
    ensures 0.0 <= num / den <= 1.0
  {
  }

  lemma ScaleWithin(t: real, a: real, b: real)
    requires 0.0 <= t <= 1.0
    ensures Within(a + t * (b - a), a, b)
  {
    var d := b - a;
    assert t * d - d == -((1.0 - t) * d);
    if a <= b {
      MulNonNegative(t, d);
      MulNonNegative(1.0 - t, d);
    } else {
      MulNonNegative(t, -d);
      MulNonNegative(1.0 - t, -d);
    }
  }

  lemma MulNonNegative(x: real, y: real)
    requires x >= 0.0 && y >= 0.0
    ensures x * y >= 0.0
  {
  }

  /** Strictly increasing chainages: no segment has zero length. */
  predicate StrictlyIncreasing(points: seq<Vertex>) {
    forall i, j :: 0 <= i < j < |points| ==> points[i].l < points[j].l
  }

  /** With strictly increasing chainages, every chainage from the first vertex's to the
      last one's yields a point. */
  lemma InRangeYieldsPoint(points: seq<Vertex>, l: real)
    requires StrictlyIncreasing(points) && |points| >= 2
    requires points[0].l as real <= l <= points[|points| - 1].l as real
    ensures XyFromL(points, l).Point?
  {
    var k := LastAtOrBelow(points, l, 0);
    var i := if k + 1 < |points| then k + 1 else k;
    assert Spans(points, i, l);
  }

  /** The last vertex from `k` on whose chainage does not exceed `l`. */
  function LastAtOrBelow(points: seq<Vertex>, l: real, k: nat): (r: nat)
    requires k < |points| && points[k].l as real <= l
    ensures k <= r < |points| && points[r].l as real <= l
    ensures r + 1 < |points| ==> l < points[r + 1].l as real
    decreases |points| - k
  {
    if k + 1 < |points| && points[k + 1].l as real <= l then LastAtOrBelow(points, l, k + 1) else k
  }

  /** With strictly increasing chainages, looking up a vertex's own chainage gives that
      vertex back. */
  lemma VertexRoundTrip(points: seq<Vertex>, k: nat)
    requires StrictlyIncreasing(points) && |points| >= 2 && k < |points|
    ensures XyFromL(points, points[k].l as real) == Point(points[k].x, points[k].y)
  {
    var l := points[k].l as real;
    var i := if k == 0 then 1 else k;
    assert SegmentFor(points, l, 1) == Some(i) by {
      assert Spans(points, i, l);
      forall j | 1 <= j < i ensures !Spans(points, j, l) {
        assert points[j].l < points[k].l;
      }
      SegmentForFirst(points, l, 1, i);
    }
    assert points[i - 1].l < points[i].l;
    InterpolateAtEnds(points[i - 1], points[i]);
  }

  /** Interpolating at either end of a segment gives that end. */
  lemma InterpolateAtEnds(a: Vertex, b: Vertex)
    requires a.l != b.l
    ensures Interpolate(a, b, a.l as real) == Point(a.x, a.y)
    ensures Interpolate(a, b, b.l as real) == Point(b.x, b.y)
  {
    var d := (b.l - a.l) as real;
    assert (b.l as real - a.l as real) / d == 1.0;
  }

  /** Vertices closer together than half a metre get the same chainage, and looking up
      that chainage then divides by zero instead of returning the first vertex. */
  lemma ShortSegmentDividesByZero(hypot: Hypot)
    requires hypot(0.25, 0.0) == 0.25
    ensures var points := FromShape([(0.0, 0.0), (0.25, 0.0)], hypot);
            points == [Vertex(0.0, 0.0, 0), Vertex(0.25, 0.0, 0)]
            && XyFromL(points, 0.0) == ZeroLengthSegment
  {
    var coords := [(0.0, 0.0), (0.25, 0.0)];
    assert coords[..1] == [(0.0, 0.0)];
    assert RoundHalfEven(0.25) == 0;
    var points := FromShape(coords, hypot);
    assert Spans(points, 1, 0.0);
  }

  /** The first spanning segment is the one the lookup finds. */
  lemma {:induction false} SegmentForFirst(points: seq<Vertex>, l: real, from: nat, i: nat)
    requires 1 <= from <= i < |points|
    requires Spans(points, i, l)
    requires forall j :: from <= j < i ==> !Spans(points, j, l)
    ensures SegmentFor(points, l, from) == Some(i)
    decreases i - from
  {
    if from < i {
      SegmentForFirst(points, l, from + 1, i);
    }
  }

  /** An entry of the list `coords_between` builds: an interpolated `(x, y)` pair or one of
      the line's own vertices `[x, y, l]`. */
  datatype Coord = XY(x: real, y: real) | XYL(v: Vertex)

  /** The vertices strictly between two chainages, in line order (get_reflines.py:55). */
  function Inner(points: seq<Vertex>, start: real, end: real): (r: seq<Coord>)
    ensures |r| <= |points|
  {
    FilterMap(points, v => InnerVertex(v, start, end))
  }

  function InnerVertex(v: Vertex, start: real, end: real): Option<Coord> {
    if start < v.l as real < end then Some(XYL(v)) else None
  }

  /** The filter keeps exactly the line's own vertices strictly between the two chainages. */
  lemma InnerExactly(points: seq<Vertex>, start: real, end: real)
    ensures forall c :: c in Inner(points, start, end) ==> c.XYL? && c.v in points && start < c.v.l as real < end
    ensures forall v :: v in points && start < v.l as real < end ==> XYL(v) in Inner(points, start, end)
  {
    var f := v => InnerVertex(v, start, end);
    var r := Inner(points, start, end);
    forall c | c in r ensures c.XYL? && c.v in points && start < c.v.l as real < end {
      var i :| 0 <= i < |r| && r[i] == c;
      FilterMapSound(points, f, i);
      var j :| 0 <= j < |points| && f(points[j]) == Some(r[i]);
    }
    forall v | v in points && start < v.l as real < end ensures XYL(v) in r {
      var j :| 0 <= j < |points| && points[j] == v;
      FilterMapComplete(points, f, j);
    }
  }

  /** Filtering keeps the line order: the vertices of two stretches come out one after
      the other. */
  lemma InnerAppend(a: seq<Vertex>, b: seq<Vertex>, start: real, end: real)
    ensures Inner(a + b, start, end) == Inner(a, start, end) + Inner(b, start, end)
  {
    FilterMapAppend(a, b, v => InnerVertex(v, start, end));
  }

  /** `coords_between` (get_reflines.py:53-57): the point at `start`, the vertices strictly
      between, the point at `end`; `None` when either lookup raises. */
  function CoordsBetween(points: seq<Vertex>, start: real, end: real): (r: Option<seq<Coord>>)
    ensures r.Some? <==> XyFromL(points, start).Point? && XyFromL(points, end).Point?
    ensures r.Some? ==> |r.value| >= 2
                        && r.value[0] == XY(XyFromL(points, start).x, XyFromL(points, start).y)
                        && r.value[|r.value| - 1] == XY(XyFromL(points, end).x, XyFromL(points, end).y)
                        && r.value[1..|r.value| - 1] == Inner(points, start, end)
  {
    var s := XyFromL(points, start);
    if !s.Point? then None
    else
      var e := XyFromL(points, end);
      if !e.Point? then None
      else
        var r := [XY(s.x, s.y)] + Inner(points, start, end) + [XY(e.x, e.y)];
        assert r[1..|r| - 1] == Inner(points, start, end);
        Some(r)
  }
}

=== FILE: seqs.dfy ===
/** Keeping and transforming the elements of a sequence, as the scripts' list
    comprehensions and filtering loops do, and running a loop body row by row. */
module Seqs {
  import opened Options

  /** `[f(x).value for x in xs if f(x) is not None]`, in order. */
  function FilterMap<A, B>(xs: seq<A>, f: A -> Option<B>): (r: seq<B>)
    ensures |r| <= |xs|
  {
    if |xs| == 0 then []
    else
      var rest := FilterMap(xs[1..], f);
      match f(xs[0])
      case None => rest
      case Some(y) => [y] + rest
  }

  /** Mapping two stretches is mapping them one after the other. */
  lemma {:induction false} FilterMapAppend<A, B>(a: seq<A>, b: seq<A>, f: A -> Option<B>)
    ensures FilterMap(a + b, f) == FilterMap(a, f) + FilterMap(b, f)
    decreases |a|
  {
    if |a| == 0 {
      assert a + b == b;
    } else {
      assert (a + b)[0] == a[0];
      assert (a + b)[1..] == a[1..] + b;
      FilterMapAppend(a[1..], b, f);
      match f(a[0]) {
        case None =>
        case Some(y) =>
          AppendAssociative([y], FilterMap(a[1..], f), FilterMap(b, f));
      }
    }
  }

  lemma AppendAssociative<T>(k: seq<T>, x: seq<T>, y: seq<T>)
    ensures k + (x + y) == (k + x) + y
  {
  }

  /** Every element kept comes from some element of the input. */
  lemma {:induction false} FilterMapSound<A, B>(xs: seq<A>, f: A -> Option<B>, i: nat)
    requires i < |FilterMap(xs, f)|
    ensures exists j :: 0 <= j < |xs| && f(xs[j]) == Some(FilterMap(xs, f)[i])
    decreases |xs|
  {
    var rest := FilterMap(xs[1..], f);
    match f(xs[0]) {
      case None =>
        FilterMapSound(xs[1..], f, i);
        var j :| 0 <= j < |xs[1..]| && f(xs[1..][j]) == Some(rest[i]);
        assert xs[j + 1] == xs[1..][j];
      case Some(y) =>
        if i > 0 {
          FilterMapSound(xs[1..], f, i - 1);
          var j :| 0 <= j < |xs[1..]| && f(xs[1..][j]) == Some(rest[i - 1]);
          assert xs[j + 1] == xs[1..][j];
        }
    }
  }

  /** Every element that maps to a value has that value kept. */
  lemma {:induction false} FilterMapComplete<A, B>(xs: seq<A>, f: A -> Option<B>, j: nat)
    requires j < |xs| && f(xs[j]).Some?
    ensures f(xs[j]).value in FilterMap(xs, f)
    decreases |xs|
  {
    if j > 0 {
      FilterMapComplete(xs[1..], f, j - 1);
      assert xs[1..][j - 1] == xs[j];
    }
  }

  /** A loop body run over `rows` with bindings carried from one row to the next, up to
      and including the first row whose action is `stop`: one action per row run, the
      first being the first row's, and only the last one may be `stop`. */
  function RunUntil<E, A(==)>(env: E, rows: seq<string>, step: (E, string) -> (E, A), stop: A): (r: seq<A>)
    ensures |r| <= |rows|
    ensures forall i :: 0 <= i < |r| - 1 ==> r[i] != stop
    ensures |r| < |rows| ==> |r| > 0 && r[|r| - 1] == stop
    ensures |rows| > 0 ==> |r| > 0 && r[0] == step(env, rows[0]).1
    decreases |rows|
  {
    if |rows| == 0 then []
    else
      var next := step(env, rows[0]);
      if next.1 == stop then [stop] else [next.1] + RunUntil(next.0, rows[1..], step, stop)
  }

  /** A row whose action is not `stop` is followed by the run over the remaining rows. */
  lemma RunUntilCons<E, A>(env: E, rows: seq<string>, step: (E, string) -> (E, A), stop: A)
    requires |rows| > 0 && step(env, rows[0]).1 != stop
    ensures RunUntil(env, rows, step, stop)
            == [step(env, rows[0]).1] + RunUntil(step(env, rows[0]).0, rows[1..], step, stop)
  {
  }
}

=== FILE: stixes.dfy ===
/** Finding the calculation files and decoding their names (get_stixes.py). A file stem
    is split on `_` and upper-cased token by token; the first token that is one of the
    known levee-section codes gives the code, and the first token of the form
    `<km>-<km>` that is not itself a code gives the chainage range, in metres. */
module Stixes {
  import opened Options
  import opened Text
  import opened Numerals
  import opened Seqs

  /** The known levee-section codes (get_stixes.py:5). */
  const Trajecten: seq<string> := ["34-1", "34-2", "34-3", "34-4", "34-5", "34A-1", "35-1", "35-2"]

  predicate IsCode(t: string) {
    t in Trajecten
  }

  /** The codes are already upper case and hold no `_`. */
  lemma TrajectenPlain()
    ensures forall t :: IsCode(t) ==> Upper(t) == t && '_' !in t
  {
    forall t | IsCode(t) ensures Upper(t) == t && '_' !in t {
      assert t == "34-1" || t == "34-2" || t == "34-3" || t == "34-4" || t == "34-5"
             || t == "34A-1" || t == "35-1" || t == "35-2";
      assert forall i :: 0 <= i < |t| ==> t[i] in "0123456789-A";
      UpperNoLower(t);
    }
  }

  /** A file found on disk: its full path and its stem (the name without the extension). */
  datatype FileRef = FileRef(path: string, stem: string)

  /** A decoded calculation file (get_stixes.py:8-13); chainages are in metres. */
  datatype StixFile = StixFile(leveecode: string, start: real, end: real, file: FileRef)

  /** The tokens of a stem: its `_`-separated parts, upper-cased (get_stixes.py:27). They
      are the pieces of the upper-cased stem, so they join back into it. */
  function Tokens(stem: string): (args: seq<string>)
    ensures args == Split(Upper(stem), '_')
    ensures Join(args, '_') == Upper(stem)
  {
    SplitUpper(stem, '_');
    UpperEach(Split(stem, '_'))
  }

  /** The first token that is a known code (get_stixes.py:28-35). */
  function FirstCode(args: seq<string>): (r: Option<string>)
    ensures r.None? <==> forall i :: 0 <= i < |args| ==> !IsCode(args[i])
    ensures r.Some? ==> IsCode(r.value) && r.value in args
  {
    if |args| == 0 then None
    else if IsCode(args[0]) then Some(args[0])
    else
      var rest := FirstCode(args[1..]);
      assert forall i :: 1 <= i < |args| ==> args[i] == args[1..][i - 1];
      rest
  }

  /** Tokens before the first code do not matter. */
  lemma {:induction false} FirstCodeSkips(pre: seq<string>, c: string, post: seq<string>)
    requires forall i :: 0 <= i < |pre| ==> !IsCode(pre[i])
    requires IsCode(c)
    ensures FirstCode(pre + [c] + post) == Some(c)
  {
    if |pre| > 0 {
      FirstCodeSkips(pre[1..], c, post);
      assert (pre + [c] + post)[1..] == pre[1..] + [c] + post;
    }
  }

  /** One pass of the try block of get_stixes.py:40-47 on token `a`: it must split on `-`
      into exactly two parts, must not itself be a code, and both parts must convert;
      the kilometres become metres. */
  function Chainage(a: string, parseFloat: string -> Option<real>): (r: Option<(real, real)>)
    ensures r.Some? <==> |Split(a, '-')| == 2 && !IsCode(Upper(a))
                         && parseFloat(Split(a, '-')[0]).Some? && parseFloat(Split(a, '-')[1]).Some?
    ensures r.Some? ==> r.value == (parseFloat(Split(a, '-')[0]).value * 1000.0,
                                    parseFloat(Split(a, '-')[1]).value * 1000.0)
  {
    var parts := Split(a, '-');
    if |parts| != 2 || IsCode(Upper(a)) then None
    else
      match parseFloat(parts[0])
      case None => None
      case Some(s) =>
        match parseFloat(parts[1])
        case None => None
        case Some(e) => Some((s * 1000.0, e * 1000.0))
  }

  /** The chainage range of the first token that yields one. */
  function FirstChainage(args: seq<string>, parseFloat: string -> Option<real>): (r: Option<(real, real)>)
    ensures r.None? <==> forall i :: 0 <= i < |args| ==> Chainage(args[i], parseFloat).None?
  {
    if |args| == 0 then None
    else
      match Chainage(args[0], parseFloat)
      case Some(c) => Some(c)
      case None =>
        var rest := FirstChainage(args[1..], parseFloat);
        assert forall i :: 1 <= i < |args| ==> args[i] == args[1..][i - 1];
        rest
  }

  /** Tokens that yield no chainage do not matter to the first one that does. */
  lemma {:induction false} FirstChainageFrom(args: seq<string>, i: nat, parseFloat: string -> Option<real>)
    requires i <= |args|
    requires forall j :: 0 <= j < i ==> Chainage(args[j], parseFloat).None?
    ensures FirstChainage(args, parseFloat) == FirstChainage(args[i..], parseFloat)
  {
    if i > 0 {
      assert Chainage(args[0], parseFloat).None?;
      FirstChainageFrom(args[1..], i - 1, parseFloat);
      assert args[1..][i - 1..] == args[i..];
    }
  }

  /** The loop of get_stixes.py:38-49 as written: `has_km` starts true, every failing
      token sets it false, the first succeeding token sets it true and ends the loop.
      `start` is rebound as soon as its part converts, so a failed token can leave a
      value behind; the token that succeeds rebinds both. */
  method ScanChainage(args: seq<string>, parseFloat: string -> Option<real>)
    returns (hasKm: bool, start: Option<real>, end: Option<real>)
    ensures |args| > 0 ==> (hasKm <==> FirstChainage(args, parseFloat).Some?)
    ensures hasKm && |args| > 0 ==>
              start == Some(FirstChainage(args, parseFloat).value.0)
              && end == Some(FirstChainage(args, parseFloat).value.1)
    ensures |args| == 0 ==> hasKm && start.None? && end.None?
  {
    hasKm := true;
    start := None;
    end := None;
    var i := 0;
    while i < |args|
      invariant 0 <= i <= |args|
      invariant forall j :: 0 <= j < i ==> Chainage(args[j], parseFloat).None?
      invariant hasKm <==> i == 0
      invariant i == 0 ==> start.None? && end.None?
    {
      hasKm, start, end := TryToken(args[i], parseFloat, start, end);
      if hasKm {
        FoundChainage(args, i, parseFloat);
        return;
      }
      i := i + 1;
    }
  }

  /** One pass of the try block of get_stixes.py:40-47 with its except branch: `start` is
      rebound once its part converts, `end` only when both do, and the result says whether
      the token yielded a range. */
  method TryToken(a: string, parseFloat: string -> Option<real>, start: Option<real>, end: Option<real>)
    returns (hasKm: bool, start': Option<real>, end': Option<real>)
    ensures hasKm <==> Chainage(a, parseFloat).Some?
    ensures hasKm ==> start' == Some(Chainage(a, parseFloat).value.0) && end' == Some(Chainage(a, parseFloat).value.1)
    ensures !hasKm ==> end' == end
  {
    start', end' := start, end;
    var parts := Split(a, '-');
    if |parts| == 2 && !IsCode(Upper(a)) {
      match parseFloat(parts[0])
      case None =>
        hasKm := false;
      case Some(s) =>
        start' := Some(s * 1000.0);
        match parseFloat(parts[1])
        case None =>
          hasKm := false;
        case Some(e) =>
          end' := Some(e * 1000.0);
          hasKm := true;
    } else {
      hasKm := false;
    }
  }

  /** The first token that yields a range gives the first range. */
  lemma FoundChainage(args: seq<string>, i: nat, parseFloat: string -> Option<real>)
    requires i < |args|
    requires forall j :: 0 <= j < i ==> Chainage(args[j], parseFloat).None?
    requires Chainage(args[i], parseFloat).Some?
    ensures FirstChainage(args, parseFloat) == Chainage(args[i], parseFloat)
  {
    FirstChainageFrom(args, i, parseFloat);
    assert args[i..][0] == args[i];
  }

  /** A stem decoded as get_stixes.py:25-55 decodes it: `None` when it holds no code or no
      chainage range (the file is reported and skipped). */
  function ScanStem(stem: string, parseFloat: string -> Option<real>): (r: Option<(string, real, real)>)
    ensures r.None? <==> FirstCode(Tokens(stem)).None? || FirstChainage(Tokens(stem), parseFloat).None?
    ensures r.Some? ==> IsCode(r.value.0) && r.value.0 == FirstCode(Tokens(stem)).value
    ensures r.Some? ==> FirstChainage(Tokens(stem), parseFloat) == Some((r.value.1, r.value.2))
  {
    var args := Tokens(stem);
    match FirstCode(args)
    case None => None
    case Some(code) =>
      match FirstChainage(args, parseFloat)
      case None => None
      case Some(c) =>
        TrajectenPlain();
        Some((Upper(code), c.0, c.1))
  }

  /** A stem in the conventional form `<code>_<start>-<end>` decodes to that code and the
      two kilometre values in metres; the texts are upper-cased before conversion, and a
      range that reads as a code itself (`34-1`) is not taken for a range. */
  lemma ConventionalStem(code: string, startText: string, endText: string, parseFloat: string -> Option<real>)
    requires IsCode(code)
    requires '_' !in startText && '_' !in endText && '-' !in startText && '-' !in endText
    requires parseFloat(Upper(startText)).Some? && parseFloat(Upper(endText)).Some?
    requires !IsCode(Upper(startText + "-" + endText))
    ensures ScanStem(code + "_" + startText + "-" + endText, parseFloat)
            == Some((code, parseFloat(Upper(startText)).value * 1000.0, parseFloat(Upper(endText)).value * 1000.0))
  {
    var km := startText + "-" + endText;
    var stem := code + "_" + km;
    assert stem == code + "_" + startText + "-" + endText;
    var args := Tokens(stem);
    var v := (parseFloat(Upper(startText)).value * 1000.0, parseFloat(Upper(endText)).value * 1000.0);
    assert args == [code, Upper(km)] by {
      StemTokens(code, km);
    }
    assert FirstCode(args) == Some(code) by {
      FirstCodeSkips([], code, [Upper(km)]);
      assert [] + [code] + [Upper(km)] == args;
    }
    assert FirstChainage(args, parseFloat) == Some(v) by {
      TrajectenPlain();
      assert Chainage(code, parseFloat).None?;
      RangeToken(startText, endText, parseFloat);
      FoundChainage(args, 1, parseFloat);
    }
    assert Upper(code) == code by {
      TrajectenPlain();
    }
    ScanStemOf(stem, code, v, parseFloat);
  }

  lemma ScanStemOf(stem: string, code: string, v: (real, real), parseFloat: string -> Option<real>)
    requires FirstCode(Tokens(stem)) == Some(code)
    requires FirstChainage(Tokens(stem), parseFloat) == Some(v)
    ensures ScanStem(stem, parseFloat) == Some((Upper(code), v.0, v.1))
  {
  }

  /** The tokens of `<code>_<km>`. */
  lemma StemTokens(code: string, km: string)
    requires IsCode(code) && '_' !in km
    ensures Tokens(code + "_" + km) == [code, Upper(km)]
  {
    TrajectenPlain();
    assert code + "_" + km == code + ['_'] + km;
    SplitAppend(code, km, '_');
    SplitNoSeparator(code, '_');
    SplitNoSeparator(km, '_');
  }

  /** The range token `<start>-<end>`, upper-cased, yields the two values in metres. */
  lemma RangeToken(startText: string, endText: string, parseFloat: string -> Option<real>)
    requires '-' !in startText && '-' !in endText
    requires parseFloat(Upper(startText)).Some? && parseFloat(Upper(endText)).Some?
    requires !IsCode(Upper(startText + "-" + endText))
    ensures Chainage(Upper(startText + "-" + endText), parseFloat)
            == Some((parseFloat(Upper(startText)).value * 1000.0, parseFloat(Upper(endText)).value * 1000.0))
  {
    var u := Upper(startText + "-" + endText);
    var us, ue := Upper(startText), Upper(endText);
    UpperAppend(startText + "-", endText);
    UpperAppend(startText, "-");
    UpperNoLower("-");
    assert u == us + ['-'] + ue;
    UpperKeepsSeparator(startText, '-');
    UpperKeepsSeparator(endText, '-');
    SplitAppend(us, ue, '-');
    SplitNoSeparator(us, '-');
    SplitNoSeparator(ue, '-');
    UpperIdempotent(startText + "-" + endText);
  }

  /** One file of the scan: the decoded file, or `None` when it is reported and skipped. */
  function DecodeFile(f: FileRef, parseFloat: string -> Option<real>): (r: Option<StixFile>)
    ensures r.Some? <==> ScanStem(f.stem, parseFloat).Some?
    ensures r.Some? ==> r.value.file == f && IsCode(r.value.leveecode)
                        && ScanStem(f.stem, parseFloat) == Some((r.value.leveecode, r.value.start, r.value.end))
  {
    match ScanStem(f.stem, parseFloat)
    case None => None
    case Some(d) => Some(StixFile(d.0, d.1, d.2, f))
  }

  /** The files whose stems decode, in the order found (get_stixes.py:20-57); the others
      are reported and skipped. */
  function GetStixes(files: seq<FileRef>, parseFloat: string -> Option<real>): (r: seq<StixFile>)
    ensures |r| <= |files|
  {
    FilterMap(files, f => DecodeFile(f, parseFloat))
  }

  /** Every entry is a file that was found, under a known code, with the values its stem
      decodes to. */
  lemma GetStixesSound(files: seq<FileRef>, parseFloat: string -> Option<real>, i: nat)
    requires i < |GetStixes(files, parseFloat)|
    ensures var s := GetStixes(files, parseFloat)[i];
            IsCode(s.leveecode) && s.file in files
            && ScanStem(s.file.stem, parseFloat) == Some((s.leveecode, s.start, s.end))
  {
    var dec := f => DecodeFile(f, parseFloat);
    FilterMapSound(files, dec, i);
    var j :| 0 <= j < |files| && dec(files[j]) == Some(GetStixes(files, parseFloat)[i]);
  }

  /** Every file whose stem decodes is in the result. */
  lemma GetStixesComplete(files: seq<FileRef>, parseFloat: string -> Option<real>, j: nat)
    requires j < |files| && ScanStem(files[j].stem, parseFloat).Some?
    ensures DecodeFile(files[j], parseFloat).value in GetStixes(files, parseFloat)
  {
    FilterMapComplete(files, f => DecodeFile(f, parseFloat), j);
  }

  /** Scanning two batches of files is scanning them one after the other. */
  lemma GetStixesAppend(a: seq<FileRef>, b: seq<FileRef>, parseFloat: string -> Option<real>)
    ensures GetStixes(a + b, parseFloat) == GetStixes(a, parseFloat) + GetStixes(b, parseFloat)
  {
    FilterMapAppend(a, b, f => DecodeFile(f, parseFloat));
  }

  /** The display name of a decoded file, `{leveecode}_{round(start)}_{round(end)}`
      (get_stixes.py:15-17), with Python's round-half-even to a whole number. */
  function StixName(s: StixFile): (r: string)
    ensures '_' !in s.leveecode ==>
              Split(r, '_') == [s.leveecode, IntToString(RoundHalfEven(s.start)), IntToString(RoundHalfEven(s.end))]
  {
    var a, b := IntToString(RoundHalfEven(s.start)), IntToString(RoundHalfEven(s.end));
    IntTextPlain(RoundHalfEven(s.start));
    IntTextPlain(RoundHalfEven(s.end));
    ThreePieces(s.leveecode, a, b);
    s.leveecode + "_" + a + "_" + b
  }

  /** The text of a whole number holds no `_`. */
  lemma IntTextPlain(i: int)
    ensures '_' !in IntToString(i)
  {
  }

  /** Three `_`-free texts joined with `_` split back into themselves. */
  lemma ThreePieces(code: string, a: string, b: string)
    requires '_' !in a && '_' !in b
    ensures '_' !in code ==> Split(code + "_" + a + "_" + b, '_') == [code, a, b]
  {
    if '_' !in code {
      var tail := a + "_" + b;
      assert code + "_" + a + "_" + b == code + ['_'] + tail;
      assert tail == a + ['_'] + b;
      SplitAppend(code, tail, '_');
      SplitAppend(a, b, '_');
      SplitNoSeparator(code, '_');
      SplitNoSeparator(a, '_');
      SplitNoSeparator(b, '_');
    }
  }

  /** Two decoded files share a name exactly when they share the code and both chainages
      round to the same metre. */
  lemma StixNameIdentifies(s: StixFile, t: StixFile)
    requires IsCode(s.leveecode) && IsCode(t.leveecode)
    ensures StixName(s) == StixName(t) <==>
              s.leveecode == t.leveecode && RoundHalfEven(s.start) == RoundHalfEven(t.start)
              && RoundHalfEven(s.end) == RoundHalfEven(t.end)
  {
    TrajectenPlain();
    if StixName(s) == StixName(t) {
      IntToStringInjective(RoundHalfEven(s.start), RoundHalfEven(t.start));
      IntToStringInjective(RoundHalfEven(s.end), RoundHalfEven(t.end));
    }
  }
}

=== FILE: text.dfy ===
/** String helpers with Python's semantics: `str.strip`, `str.split`, `str.replace`
    (with an empty replacement), `str.upper` and the ordering `<` on `str`. */
module Text {

  /** Python's `str.isspace` for a single character (the full Unicode whitespace set). */
  predicate IsSpace(c: char) {
    || ('\t' <= c <= '\r')
    || ('\U{1c}' <= c <= ' ')
    || c == '\U{85}' || c == '\U{a0}' || c == '\U{1680}'
    || ('\U{2000}' <= c <= '\U{200a}')
    || c == '\U{2028}' || c == '\U{2029}' || c == '\U{202f}' || c == '\U{205f}' || c == '\U{3000}'
  }

  predicate AllSpace(s: string) {
    forall i :: 0 <= i < |s| ==> IsSpace(s[i])
  }

  /** Neither end of `s` is whitespace. */
  predicate IsStripped(s: string) {
    s == [] || (!IsSpace(s[0]) && !IsSpace(s[|s| - 1]))
  }

  /** `s.lstrip()`: the suffix left after dropping leading whitespace. */
  function TrimStart(s: string): (r: string)
    ensures |r| <= |s| && r == s[|s| - |r|..]
    ensures AllSpace(s[..|s| - |r|])
    ensures r == [] || !IsSpace(r[0])
  {
    if |s| > 0 && IsSpace(s[0]) then
      var r := TrimStart(s[1..]);
      assert s[..|s| - |r|] == [s[0]] + s[1..][..|s| - 1 - |r|];
      SpaceCons(s[0], s[1..][..|s| - 1 - |r|]);
      r
    else s
  }

  lemma SpaceCons(c: char, t: string)
    requires IsSpace(c) && AllSpace(t)
    ensures AllSpace([c] + t)
  {
    forall i | 0 <= i < |[c] + t| ensures IsSpace(([c] + t)[i]) {
      if i > 0 {
        assert ([c] + t)[i] == t[i - 1];
      }
    }
  }

  /** `s.rstrip()`: the prefix left after dropping trailing whitespace. */
  function TrimEnd(s: string): (r: string)
    ensures |r| <= |s| && r == s[..|r|]
    ensures AllSpace(s[|r|..])
    ensures r == [] || !IsSpace(r[|r| - 1])
  {
    if |s| > 0 && IsSpace(s[|s| - 1]) then
      var r := TrimEnd(s[..|s| - 1]);
      assert s[|r|..] == s[..|s| - 1][|r|..] + [s[|s| - 1]];
      r
    else s
  }

  /** `s.strip()`: `s` without leading and trailing whitespace. */
  function Strip(s: string): (r: string)
    ensures IsStripped(r)
    ensures |r| <= |s|
    ensures r == [] <==> AllSpace(s)
  {
    var t := TrimStart(s);
    var r := TrimEnd(t);
    assert r == [] ==> AllSpace(s) by {
      if r == [] {
        assert t == [] && s[..|s| - |t|] == s;
      }
    }
    r
  }

  /** The stripped string is a slice of `s` with only whitespace outside it. */
  lemma StripSlice(s: string)
    ensures StripsTo(s, |s| - |TrimStart(s)|, Strip(s))
  {
    var t := TrimStart(s);
    NestedSlice(s, |s| - |t|, t, TrimEnd(t));
  }

  lemma NestedSlice(s: string, i: nat, t: string, r: string)
    requires i <= |s| && t == s[i..] && |r| <= |t| && r == t[..|r|]
    requires AllSpace(s[..i]) && AllSpace(t[|r|..])
    ensures StripsTo(s, i, r)
  {
    assert s[i + |r|..] == t[|r|..];
  }

  /** `r` is the slice of `s` at offset `i` and everything outside it is whitespace. */
  predicate StripsTo(s: string, i: nat, r: string) {
    i + |r| <= |s| && r == s[i..i + |r|] && AllSpace(s[..i]) && AllSpace(s[i + |r|..])
  }

  /** A string with no whitespace at either end is its own strip. */
  lemma StripStripped(s: string)
    requires IsStripped(s)
    ensures Strip(s) == s
  {
  }

  /** `strip` is idempotent. */
  lemma StripIdempotent(s: string)
    ensures Strip(Strip(s)) == Strip(s)
  {
    StripStripped(Strip(s));
  }

  /** `sep.join(parts)`. */
  function Join(parts: seq<string>, sep: char): string
  {
    if |parts| == 0 then []
    else if |parts| == 1 then parts[0]
    else parts[0] + [sep] + Join(parts[1..], sep)
  }

  /** Number of occurrences of `c` in `s`. */
  function Count(s: string, c: char): nat
  {
    if |s| == 0 then 0 else (if s[0] == c then 1 else 0) + Count(s[1..], c)
  }

  /** `s.split(sep)` for a one-character separator: the pieces between separators,
      empty pieces included; there is always at least one piece. */
  function Split(s: string, sep: char): (r: seq<string>)
    ensures |r| == Count(s, sep) + 1
    ensures forall i :: 0 <= i < |r| ==> sep !in r[i]
    ensures Join(r, sep) == s
  {
    if |s| == 0 then [[]]
    else
      var rest := Split(s[1..], sep);
      assert s == [s[0]] + s[1..];
      JoinConsPiece(s[0], rest, sep);
      ConsPiece(s[0], rest, sep)
  }

  /** Puts one more character in front of already split pieces. */
  function ConsPiece(c: char, pieces: seq<string>, sep: char): (r: seq<string>)
    requires |pieces| >= 1
    ensures |r| >= 1
  {
    if c == sep then [[]] + pieces else [[c] + pieces[0]] + pieces[1..]
  }

  lemma JoinConsPiece(c: char, pieces: seq<string>, sep: char)
    requires |pieces| >= 1
    ensures Join(ConsPiece(c, pieces, sep), sep) == [c] + Join(pieces, sep)
  {
    if c != sep && |pieces| > 1 {
      var r := ConsPiece(c, pieces, sep);
      assert r[1..] == pieces[1..];
    }
  }

  lemma ConsPieceAppend(c: char, ra: seq<string>, rb: seq<string>, sep: char)
    requires |ra| >= 1
    ensures ConsPiece(c, ra + rb, sep) == ConsPiece(c, ra, sep) + rb
  {
    if c != sep {
      assert (ra + rb)[0] == ra[0];
      assert (ra + rb)[1..] == ra[1..] + rb;
    }
  }

  /** `s.split(sep)[0]`: the text before the first separator, or all of `s`. */
  function FirstPiece(s: string, sep: char): (r: string)
    ensures sep !in r
    ensures |r| <= |s| && r == s[..|r|]
    ensures |r| == |s| || s[|r|] == sep
  {
    var parts := Split(s, sep);
    assert |parts| > 1 ==> s == parts[0] + [sep] + Join(parts[1..], sep);
    parts[0]
  }

  /** Splitting a joined list of separator-free pieces gives the pieces back. */
  lemma {:induction false} SplitJoin(parts: seq<string>, sep: char)
    requires |parts| >= 1
    requires forall i :: 0 <= i < |parts| ==> sep !in parts[i]
    ensures Split(Join(parts, sep), sep) == parts
  {
    if |parts| == 1 {
      SplitNoSeparator(parts[0], sep);
    } else {
      SplitJoin(parts[1..], sep);
      SplitAppend(parts[0], Join(parts[1..], sep), sep);
      SplitNoSeparator(parts[0], sep);
      assert parts == [parts[0]] + parts[1..];
    }
  }

  /** A string without the separator splits into itself alone. */
  lemma {:induction false} SplitNoSeparator(s: string, sep: char)
    requires sep !in s
    ensures Split(s, sep) == [s]
  {
    if |s| > 0 {
      SplitNoSeparator(s[1..], sep);
      assert s == [s[0]] + s[1..];
    }
  }

  /** Splitting `a + sep + b` splits `a` and `b` separately. */
  lemma {:induction false} SplitAppend(a: string, b: string, sep: char)
    ensures Split(a + [sep] + b, sep) == Split(a, sep) + Split(b, sep)
  {
    var s := a + [sep] + b;
    if |a| == 0 {
      assert s[0] == sep && s[1..] == b;
    } else {
      var tail := a[1..] + [sep] + b;
      SplitAppend(a[1..], b, sep);
      var ra := Split(a[1..], sep);
      var rb := Split(b, sep);
      assert Split(s, sep) == ConsPiece(a[0], Split(tail, sep), sep) by {
        assert s[0] == a[0] && s[1..] == tail;
      }
      ConsPieceAppend(a[0], ra, rb, sep);
    }
  }

  /** The last piece of `a + sep + b`, when `b` has no separator, is `b`. */
  lemma LastPiece(a: string, b: string, sep: char)
    requires sep !in b
    ensures var p := Split(a + [sep] + b, sep); p[|p| - 1] == b
  {
    SplitAppend(a, b, sep);
    SplitNoSeparator(b, sep);
  }

  /** A text with no separator in it splits into itself alone. */
  lemma SplitWhole(s: string, sep: char)
    ensures sep !in s ==> Split(s, sep) == [s]
  {
    if sep !in s {
      SplitNoSeparator(s, sep);
    }
  }

  /** `pat` occurs in `s` starting at index `i`. */
  predicate OccursAt(s: string, pat: string, i: nat) {
    i + |pat| <= |s| && s[i..i + |pat|] == pat
  }

  /** `pat` occurs somewhere in `s`. */
  ghost predicate Contains(s: string, pat: string) {
    exists i: nat :: OccursAt(s, pat, i)
  }

  /** `s.replace(pat, "")`: occurrences of `pat` are found left to right, without
      overlapping, and removed. */
  function RemoveAll(s: string, pat: string): (r: string)
    requires |pat| > 0
    ensures |r| <= |s|
    ensures !Contains(s, pat) ==> r == s
    decreases |s|
  {
    if |s| < |pat| then s
    else if s[..|pat|] == pat then
      assert OccursAt(s, pat, 0);
      RemoveAll(s[|pat|..], pat)
    else
      var r := [s[0]] + RemoveAll(s[1..], pat);
      assert !Contains(s, pat) ==> !Contains(s[1..], pat) by {
        if Contains(s[1..], pat) {
          var i: nat :| OccursAt(s[1..], pat, i);
          assert s[i + 1..i + 1 + |pat|] == s[1..][i..i + |pat|];
          assert OccursAt(s, pat, i + 1);
        }
      }
      assert !Contains(s, pat) ==> r == s by {
        if !Contains(s, pat) { assert s == [s[0]] + s[1..]; }
      }
      r
  }

  /** Removing occurrences of a pattern never introduces a character. */
  lemma {:induction false} RemoveAllKeepsOut(s: string, pat: string, c: char)
    requires |pat| > 0 && c !in s
    ensures c !in RemoveAll(s, pat)
    decreases |s|
  {
    if |s| < |pat| {
    } else if s[..|pat|] == pat {
      assert forall k :: 0 <= k < |s[|pat|..]| ==> s[|pat|..][k] == s[k + |pat|];
      RemoveAllKeepsOut(s[|pat|..], pat, c);
    } else {
      assert forall k :: 0 <= k < |s[1..]| ==> s[1..][k] == s[k + 1];
      RemoveAllKeepsOut(s[1..], pat, c);
    }
  }

  const StixSuffix: string := ".stix"

  /** Removing every `.stix` from `t + ".stix"` gives `t` back when `t` itself holds no
      `.stix`: no occurrence can straddle the join, because `.` occurs in `.stix` only first. */
  lemma {:induction false} RemoveStixSuffix(t: string)
    requires !Contains(t, StixSuffix)
    ensures RemoveAll(t + StixSuffix, StixSuffix) == t
    decreases |t|
  {
    if |t| == 0 {
      assert t + StixSuffix == StixSuffix;
      assert StixSuffix[|StixSuffix|..] == [];
    } else {
      var s := t + StixSuffix;
      assert s[..5] != StixSuffix by {
        if |t| >= 5 {
          assert t[..5] == s[..5];
          assert !OccursAt(t, StixSuffix, 0);
        } else {
          assert s[|t|] == '.';
        }
      }
      assert !Contains(t[1..], StixSuffix) by {
        if Contains(t[1..], StixSuffix) {
          var i: nat :| OccursAt(t[1..], StixSuffix, i);
          assert t[i + 1..i + 1 + 5] == t[1..][i..i + 5];
          assert OccursAt(t, StixSuffix, i + 1);
        }
      }
      RemoveAllSkip(s, StixSuffix);
      assert s[1..] == t[1..] + StixSuffix;
      RemoveStixSuffix(t[1..]);
      assert t == [t[0]] + t[1..];
    }
  }

  /** Where `pat` does not start the string, its first character is kept. */
  lemma RemoveAllSkip(s: string, pat: string)
    requires 0 < |pat| <= |s| && s[..|pat|] != pat
    ensures RemoveAll(s, pat) == [s[0]] + RemoveAll(s[1..], pat)
  {
  }

  /** An ASCII lower-case letter. */
  predicate IsLowerAscii(c: char) {
    'a' <= c <= 'z'
  }

  /** ASCII upper-casing of one character. */
  function UpperChar(c: char): char {
    if IsLowerAscii(c) then (c as int - 32) as char else c
  }

  /** `s.upper()`, restricted to the ASCII letters: every lower-case letter becomes its
      capital, 32 code points below, every other character stays, and no lower-case
      letter remains. */
  function Upper(s: string): (r: string)
    ensures |r| == |s|
    ensures forall i :: 0 <= i < |s| && IsLowerAscii(s[i]) ==> r[i] as int == s[i] as int - 32
    ensures forall i :: 0 <= i < |s| && !IsLowerAscii(s[i]) ==> r[i] == s[i]
    ensures forall i :: 0 <= i < |r| ==> !IsLowerAscii(r[i])
  {
    seq(|s|, i requires 0 <= i < |s| => UpperChar(s[i]))
  }

  /** Upper-casing works character by character, so it distributes over concatenation. */
  lemma UpperAppend(a: string, b: string)
    ensures Upper(a + b) == Upper(a) + Upper(b)
  {
    assert forall i :: 0 <= i < |a + b| ==> Upper(a + b)[i] == UpperChar((a + b)[i]);
  }

  /** Upper-casing leaves every character that is not a lower-case letter alone, so a
      separator outside `a`-`z` is found in the same places afterwards. */
  lemma UpperKeepsSeparator(s: string, sep: char)
    requires !IsLowerAscii(sep) && !('A' <= sep <= 'Z')
    ensures sep in Upper(s) <==> sep in s
  {
    if sep in Upper(s) {
      var i :| 0 <= i < |s| && Upper(s)[i] == sep;
    }
    if sep in s {
      var i :| 0 <= i < |s| && s[i] == sep;
      assert Upper(s)[i] == sep;
    }
  }

  /** Every piece upper-cased. */
  function UpperEach(parts: seq<string>): (r: seq<string>)
    ensures |r| == |parts|
    ensures forall i :: 0 <= i < |parts| ==> r[i] == Upper(parts[i])
  {
    seq(|parts|, i requires 0 <= i < |parts| => Upper(parts[i]))
  }

  /** Joining upper-cased pieces on a separator that is not a letter upper-cases the join. */
  lemma {:induction false} JoinUpperEach(parts: seq<string>, sep: char)
    requires !IsLowerAscii(sep)
    ensures Join(UpperEach(parts), sep) == Upper(Join(parts, sep))
    decreases |parts|
  {
    if |parts| > 1 {
      JoinUpperEach(parts[1..], sep);
      assert UpperEach(parts)[1..] == UpperEach(parts[1..]);
      UpperAppend(parts[0] + [sep], Join(parts[1..], sep));
      UpperAppend(parts[0], [sep]);
      assert Upper([sep]) == [sep];
    }
  }

  /** Splitting on a separator that is not a letter commutes with upper-casing. */
  lemma SplitUpper(s: string, sep: char)
    requires !IsLowerAscii(sep) && !('A' <= sep <= 'Z')
    ensures Split(Upper(s), sep) == UpperEach(Split(s, sep))
  {
    var parts := Split(s, sep);
    var up := UpperEach(parts);
    forall i | 0 <= i < |up| ensures sep !in up[i] {
      UpperKeepsSeparator(parts[i], sep);
    }
    JoinUpperEach(parts, sep);
    SplitJoin(up, sep);
  }

  /** Upper-casing twice is upper-casing once. */
  lemma UpperIdempotent(s: string)
    ensures Upper(Upper(s)) == Upper(s)
  {
    UpperNoLower(Upper(s));
  }

  /** A text with no lower-case letter is its own upper case. */
  lemma UpperNoLower(s: string)
    requires forall i :: 0 <= i < |s| ==> !IsLowerAscii(s[i])
    ensures Upper(s) == s
  {
  }

  /** Python's `a < b` on strings: code-point lexicographic order. */
  predicate LexLess(a: string, b: string) {
    if |a| == 0 then |b| > 0
    else if |b| == 0 then false
    else if a[0] < b[0] then true
    else if a[0] == b[0] then LexLess(a[1..], b[1..])
    else false
  }

  /** `a <= b` on strings. */
  predicate LexLessEq(a: string, b: string) {
    a == b || LexLess(a, b)
  }

  lemma {:induction false} LexLessIrreflexive(a: string)
    ensures !LexLess(a, a)
  {
    if |a| > 0 {
      LexLessIrreflexive(a[1..]);
    }
  }

  lemma {:induction false} LexLessTransitive(a: string, b: string, c: string)
    requires LexLess(a, b) && LexLess(b, c)
    ensures LexLess(a, c)
  {
    if |a| > 0 && |b| > 0 && |c| > 0 && a[0] == b[0] && b[0] == c[0] {
      LexLessTransitive(a[1..], b[1..], c[1..]);
    }
  }

  /** Any two distinct strings are ordered one way or the other. */
  lemma {:induction false} LexLessTotal(a: string, b: string)
    requires a != b
    ensures LexLess(a, b) || LexLess(b, a)
  {
    if |a| > 0 && |b| > 0 && a[0] == b[0] {
      LexLessTotal(a[1..], b[1..]);
    }
  }

  /** A common prefix does not change the order. */
  lemma {:induction false} LexLessCommonPrefix(p: string, a: string, b: string)
    ensures LexLess(p + a, p + b) <==> LexLess(a, b)
  {
    if |p| == 0 {
      assert p + a == a && p + b == b;
    } else {
      LexLessCommonPrefix(p[1..], a, b);
      assert (p + a)[1..] == p[1..] + a;
      assert (p + b)[1..] == p[1..] + b;
    }
  }

  /** `<=` on strings is transitive. */
  lemma LexLessEqTransitive()
    ensures forall a, b, c :: LexLessEq(a, b) && LexLessEq(b, c) ==> LexLessEq(a, c)
  {
    forall a, b, c | LexLessEq(a, b) && LexLessEq(b, c) ensures LexLessEq(a, c) {
      if a != b && b != c {
        LexLessTransitive(a, b, c);
      }
    }
  }

  /** Any two strings compare under `<=`. */
  lemma LexLessEqTotal()
    ensures forall a, b :: LexLessEq(a, b) || LexLessEq(b, a)
  {
    forall a, b ensures LexLessEq(a, b) || LexLessEq(b, a) {
      if a != b {
        LexLessTotal(a, b);
      }
    }
  }
}
